=== FILE: README.md ===
# Gophermart loyalty backend — a Dafny model

Gophermart is a loyalty-points backend. Users register and log in. They
submit purchase order numbers, which must pass the Luhn check. An
external accrual oracle is polled for each order until it settles, and a
settled order credits the owner's balance. Users can spend their balance
on withdrawals and list their orders and their withdrawal history.

The model covers the sequential decision logic of the backend, as pure
functions over an abstract store:

- `Errors`: the error values, and the `Option`, `Result` and `Outcome` wrappers.
- `Numbers`: Go's `strconv.Atoi` and `strconv.Itoa` on a 64-bit `int`, and Go's truncating `/` and `%`.
- `Luhn`: the Luhn mod-10 check digit of ISO/IEC 7812-1, Annex B.
  - `IsValid` is the reference definition.
  - `TextIsValid` applies the check to the digit string as written.
  - `Check` is the checksum library's loop, with Go's truncating arithmetic.
- `Model`: the order statuses and the records passed between layers.
- `Sorting`: `ORDER BY … DESC` on a time column.
- `Repository`: each SQL statement as a transformer of three tables.
  - The tables are `users`, `orders` and `withdraw_history`.
  - Database failures from outside the model are a `Fault` parameter.
  - `FailsAt(i)` makes statement `i` of a call report an error.
- `Service`: order submission, withdrawal, listings, login and registration.
  - `SendOrder`, `Withdraw` and `Register` change the store. Each returns the store after it, its outcome, and the repository calls it made. `SendOrder` also returns the jobs it queued for accrual.
  - `Login` and `GetOrders` are methods that return their result and the repository calls they made.
  - `GetBalanceByUserID` and `GetWithdrawHistory` return only their result.
- `Accrual`: the worker's handling of one oracle reply.
  - `makeRequest` status classification, the lookup URL, and the effect of `ProcessAccrual`.
- `Handlers`: the HTTP request guards, and the mapping of service errors to status codes.
  - Both are stated end to end in terms of the store.
- `Ledger`: the backend as a state machine.
  - The state is the store, the accrual queue and the log of repository calls.
  - The events are the requests that write (registration, order submission, withdrawal) and the worker's turns. They interleave one at a time.
  - The read-only requests (login, order list, balance, withdrawal history) change nothing and are not events.
  - It proves an invariant over every history from the empty store, and with it:
    - each order receives at most one accrual write;
    - an order whose stored status is settled (anything but NEW, REGISTERED or PROCESSING) has received exactly one;
    - an order that has had its accrual write never changes again;
    - the write credits the order's owner;
    - a user's balance plus withdrawn total changes only by accrual credits.

Money is an exact decimal in the source, so it is modelled as `real`.
Order statuses are stored as free text, because the oracle's status is
written back verbatim. `Model.Status` therefore has an `Other` case,
`Parse` and `Name` convert between the text and the status, and a lemma
shows the conversion round-trips.

## Model

| member | source | states |
|---|---|---|
| Numbers.Atoi | internal/service.go:42-45 | An order number parses only as an optionally signed run of decimal digits, and a parsed number is the value the text denotes. A well-formed value outside the 64-bit range is a range error. A malformed string is a syntax error, unless the digits before its first non-digit already exceed the largest `uint64`, which is a range error. |
| Numbers.OverflowIsRange | internal/service.go:42-45 | Digits whose value exceeds the largest `uint64` make a range error whatever follows them, a non-digit included. |
| Numbers.NatTextValue | internal/service.go:89 | The decimal text of a natural number reads back as that number and has no sign. |
| Numbers.ItoaAtoiRoundTrip | internal/handlers.go:195-208 | The user id written into a token as text parses back to the same id for every 64-bit value. |
| Luhn.TextTotalAgrees | internal/service.go:47-49 | The Luhn total over a digit string equals the total over the digits of the integer it denotes. |
| Luhn.TextCheckAgrees | internal/service.go:47-49 | Checking the parsed integer accepts exactly the digit strings the standard accepts. Leading zeros do not matter. |
| Luhn.Check | internal/service.go:47 | The library's loop, on Go's truncating `/` and `%`, reaches the `IsValid` verdict on every integer. For a natural number that is the standard's check. A negative number is accepted exactly when it is a multiple of ten. |
| Luhn.NegativeApart | internal/service.go:47 | For a negative number, the library's final step is zero exactly when the number is a multiple of ten. |
| Model.NameOfParse | internal/model/order.go:9-15 | Any status text read from the oracle and written back to the status column is unchanged. The parsed status never hides a known name under `Other`. |
| Model.ParseOfName | internal/model/order.go:9-15 | Each of the five known statuses survives being written as text and read back. |
| Sorting.Sort | internal/repository.go:117 | The listing is in descending key order and has exactly the rows it was given, as a multiset. |
| Repository.IsUserExist | internal/repository.go:67-77 | The answer is true exactly when some user has the login. It is an error exactly on a fault. |
| Repository.Register | internal/repository.go:56-65 | A new user with zero balance and zero withdrawn is stored under an id not used before. Every existing user is unchanged. Orders and history are unchanged. |
| Repository.CheckCredentials | internal/repository.go:79-92 | With no fault: the id of a user with this login and password digest, and `InvalidCredentials` exactly when there is none. |
| Repository.GetBalanceByUserID | internal/repository.go:140-149 | On success, the user's stored balance and withdrawn total. An unknown user is a no-rows error. |
| Repository.GetOrderByNumber | internal/repository.go:94-106 | A stored order is returned with its owner, status and time, and accrual zero because that column is not selected. No row is not an error: it returns the sentinel order whose owner is -1. |
| Repository.NotFoundSentinel | internal/repository.go:99-101 | When no order is owned by -1, a returned owner of -1 means exactly that the number is not stored. |
| Repository.SendOrder | internal/repository.go:108-114 | A new number is stored as NEW, with zero accrual, for the given user. An existing number or a fault fails and changes nothing. Users and history are never touched. |
| Repository.ListOneMore | internal/repository.go:127-135 | Adding one more owned order to an exact, sorted listing keeps it exact and sorted. |
| Repository.GetOrders | internal/repository.go:116-138 | The listing has one row for each order the user owns and nothing else. The rows are ordered by upload time, newest first. |
| Repository.UpdateOrderStatus | internal/repository.go:195-202 | Only the status of the numbered order changes. Its accrual, other orders and all users are unchanged. |
| Repository.MakeAccrual | internal/repository.go:204-221 | The order's status and accrual are set, then the user's balance is overwritten with the absolute value given. Withdrawn and other users are unchanged. A failure of the second statement keeps the first statement's effect. |
| Repository.Withdraw | internal/repository.go:151-169 | A history row is appended, then balance and withdrawn are overwritten with the values given. A failure of the second statement keeps the appended row. Orders and other users are unchanged. |
| Repository.OwnRows | internal/repository.go:172 | A row is in the user's history exactly when some stored withdrawal of that user produced it. |
| Repository.GetWithdrawHistory | internal/repository.go:171-193 | The user's withdrawals, newest first, as a permutation of that user's history rows. |
| Repository.WithdrawRecorded | internal/repository.go:158 | A withdrawal adds exactly one row to its user's history and none to anyone else's. |
| Service.CheckNumber | internal/service.go:42-49 | A parse error is returned as is. A parsed number passes exactly when it is Luhn-valid. |
| Service.CheckDigits | internal/service.go:42-49 | For a plain digit string in range, the check passes exactly when the digits pass the standard's Luhn check. |
| Service.SendOrder | internal/service.go:41-71 | A number that fails the parse or the check makes no repository call. The order is refused as already sent when the caller owns it. It is refused as sent by another user when someone else owns it. Otherwise it is inserted for the caller. Exactly one job `(uid, number)` is queued, and only when the insert succeeded. |
| Service.Withdraw | internal/service.go:147-179 | The number check comes before the balance read. Insufficient funds is returned, with nothing written, exactly when balance < sum; an equal balance is enough. Success writes `balance - sum` and `withdrawn + sum`. A failed read or an unknown user writes nothing. A failed write leaves every user unchanged and keeps the history row when the first statement ran, since nothing is rolled back. Every user's balance plus withdrawn total is unchanged. |
| Service.WithdrawKeepsBalanceNonNegative | internal/service.go:164-171 | With a non-negative balance and sum, a successful withdrawal leaves a non-negative balance no larger than before. |
| Service.GetBalanceByUserID | internal/service.go:138-145 | The user's stored balance and withdrawn total when the read runs and the user exists. `NoRows` for an unknown user, and a database error when the read fails. |
| Service.RequireRecords | internal/service.go:132-134 | An empty listing becomes `NoRecords`. Anything else passes through unchanged. |
| Service.GetOrders | internal/service.go:126-136 | `NoRecords` exactly when the user owns no order. Otherwise, the exact listing of the user's orders. |
| Service.GetWithdrawHistory | internal/service.go:181-191 | A database error when the read fails. `NoRecords` exactly when the user has no withdrawal. A list exactly when the read runs and the user has withdrawn: the user's withdrawals newest first. |
| Service.Login | internal/service.go:96-108 | `InvalidCredentials` exactly when no user has the login and the password digest. On success, the id of such a user. |
| Service.Register | internal/service.go:73-94 | `LoginIsAlreadyTaken` exactly when the login exists. On success, a new user with the digest of the password and zero balances. Orders, history, and every existing user's holdings are unchanged. The store keeps its invariant. |
| Accrual.RequestUrl | internal/accrual.go:127 | The URL is the base address, then `/api/orders/`, then the order number, each at its place. |
| Accrual.RequestUrlInjective | internal/accrual.go:127 | Two order numbers never share a lookup URL. |
| Accrual.MakeRequest | internal/accrual.go:124-151 | Every non-200 status is `TooManyRequests`. A body is returned only for a 200 whose body could be read. |
| Accrual.Classify | internal/accrual.go:82-107 | Requeue on any non-200. Drop on a transport or read error, or on malformed JSON. REGISTERED and PROCESSING are pending. Every other status, unknown text included, is settled with the decoded accrual. |
| Accrual.ProcessAccrual | internal/accrual.go:81-122 | A rate-limited job is requeued with no repository call. A dropped job changes nothing. A pending job has only its status updated, and is requeued exactly when the update succeeded. A settled job is never requeued. It reads the balance and, only if that read succeeds, calls `MakeAccrual` with `balance + accrual`. |
| Accrual.ProcessAccrualLedger | internal/accrual.go:109-121 | One job changes a user's balance plus withdrawn total only by crediting its own user with the decoded accrual. It never touches anyone's withdrawn total. |
| Accrual.AbsentAccrualCreditsNothing | internal/accrual.go:78 | A reply with no accrual field, such as INVALID, takes the credit branch but moves no money. |
| Handlers.Login | internal/handlers.go:26-45 | 400 for an unparsable body. 401 exactly when the credentials match no user. 500 exactly on a database failure. Otherwise 200. |
| Handlers.Register | internal/handlers.go:47-66 | The code is one of 400, 409, 200 and 500. 400 exactly for an unparsable body. 409 exactly when the login is taken. 200 exactly when the user was created. 500 exactly when the existence check or the insert fails. Nothing changes unless 200. |
| Handlers.CreateOrder | internal/handlers.go:68-97 | The code is one of 401, 400, 202, 200, 409, 422 and 500. 401 exactly without a token. 400 exactly, with no service call, when the `Content-Type` is not exactly `text/plain`. 422 exactly for a Luhn failure. 200 exactly when the caller already sent the order. 409 exactly when another user did. 202 exactly when the order was stored and queued. 500 exactly for a number that is not an integer, a failed lookup or insert, or an insert over an ownerless stored order. |
| Handlers.GetOrders | internal/handlers.go:99-116 | 401 without a token. 204 exactly when the caller has no orders. 500 exactly on a database failure. Otherwise 200. |
| Handlers.GetBalance | internal/handlers.go:118-133 | 401 without a token. 500 on a database failure or an unknown user. Otherwise 200. |
| Handlers.Withdraw | internal/handlers.go:135-161 | The code is one of 401, 400, 422, 402, 200 and 500. 401 exactly without a token, and 400 exactly for an unparsable body, an empty order number or a zero sum; neither changes the store. 422 exactly for a Luhn failure; neither 422 nor 402 changes the store. 500 exactly for a number that is not an integer, a failed balance read, an unknown user, or a failed write. 402 exactly when the balance is below the sum. 200 exactly when the withdrawal was written, and only then does a balance change. Balance plus withdrawn is unchanged for every user. |
| Handlers.NegativeWithdrawRaisesBalance | internal/handlers.go:144 | A negative sum passes both guards and is accepted. The balance rises and the withdrawn total falls. |
| Handlers.WithdrawHistory | internal/handlers.go:163-181 | 401 without a token. 204 exactly when the caller never withdrew. 500 exactly on a database failure. Otherwise 200. |
| Ledger.SignUpKeepsInv | internal/service.go:73-94 | A registration keeps the invariant. It adds a user under a fresh id and touches no order, job or accrual write. |
| Ledger.SubmitKeepsInv | internal/service.go:64-70 | A submission queues only an order it has just stored for the caller. That number was neither queued nor accrued before. |
| Ledger.WithdrawalKeepsInv | internal/service.go:147-179 | A withdrawal keeps the invariant. It writes no order, job or accrual write. |
| Ledger.LookupKeepsInv | internal/accrual.go:81-122 | A worker turn keeps every queued job stored, owned by its user and unique. It writes an accrual only for the job it drops for good. |
| Ledger.NextKeepsInv | internal/accrual.go:54-65 | Every registration, submission, withdrawal and worker turn keeps the invariant. |
| Ledger.ReplayKeepsInv | internal/accrual.go:54-65 | The invariant holds after any finite history. |
| Ledger.AccruedAtMostOnce | internal/accrual.go:109-121 | Over any history from the empty system, no order receives two accrual writes. Every accrual write credits the order's owner. |
| Ledger.SettledAccruedExactlyOnce | internal/accrual.go:99-121 | Over any history from the empty system, a stored order whose status is not NEW, REGISTERED or PROCESSING (a PROCESSED order among them) has exactly one accrual write in the log. The insert stores NEW, the status update only stores the two polling statuses, and only the accrual write stores any other. |
| Ledger.AccruedFrozen | internal/accrual.go:99-121 | Once an order has had its accrual write, no later event changes it. |
| Ledger.NextConserves | internal/service.go:168-173 | A user's balance plus withdrawn total changes by exactly the accrual credited by the event. Registrations, submissions and withdrawals move none. |
| Ledger.ReplayConserves | internal/accrual.go:115-117 | Over any history, a user's balance plus withdrawn total changes by exactly the sum of the accruals credited to them. |
| Ledger.SettleTurn | internal/accrual.go:109-121 | With no faults, a settled reply for the only queued job sets the order's status and accrual. It credits the owner's balance with exactly the accrual, records the accrual write, and empties the queue. |
| Ledger.ProcessedLifecycle | internal/accrual.go:99-121 | With no faults, a valid order looked up as PROCESSING and then as PROCESSED ends PROCESSED with the accrual. It leaves the queue, has its one accrual write, and its owner's balance rises by exactly that amount. |
| Ledger.InvalidLifecycle | internal/accrual.go:82-121 | With no faults, a valid order whose first lookup is refused and whose second says INVALID ends INVALID and leaves the queue. It moves no money. |
| Ledger.FirstCredit | internal/accrual.go:109-121 | From the empty system, a sign-up, the submission of a valid order and a PROCESSED reply give the new user (id 1) an accrued order and a balance of exactly the accrual. |

## Left out

- The token is left out: the JWT, its signing and parsing, and the cookie. A request's identity is an `Option<int>`, `None` when the token cannot be resolved.
- Service.Login: returns the user id the token would carry, not the signed token.
- Service.Register: returns the user id the token would carry, not the signed token. Token signing failure is not modelled.
- Password hashing is foreign code. It is a `digest` function parameter. `getHash` (internal/service.go:193-197) calls `Sum` on a SHA-256 hasher that nothing was written to, and `Sum` appends to its argument, so the stored text is the base64 encoding of the password's bytes followed by the SHA-256 digest of the empty input. It is not a hash of the password.
- Request bodies the JSON parser rejects are `None`. JSON decoding of the oracle body is a `Body` datatype: unreadable, malformed, or decoded.
- The HTTP client in `makeRequest` is left out. A request that cannot be built or sent is `NoReply`.
- Goroutines, the unbuffered channel, `time.Sleep` and context cancellation in `Run` and `SendToQueue` are left out. The queue is a sequence handled one job at a time, and a requeued job joins the back. Concurrent requests, including the balance read-then-write race, are not modelled.
- The time at which a row is written is an input (`now`), in whole seconds.
- Rows with equal timestamps come in no particular order; the model says only that listings are sorted and complete.
- A failed transaction `Begin` (a nil transaction, then a panic in the deferred `Commit`) is not modelled.
- The transaction is committed whatever happens. PostgreSQL would in fact discard the first statement once the second fails; the model keeps the first statement's effect, as the Go code intends on its face.
- The `rows.Err()` check in the two listings returns a nil error in the source and is not modelled.
- Migrations, connection setup, configuration and process wiring are I/O and are left out.
- The stale duplicate types in `internal/order.go`, `internal/withdraw.go` and `internal/user.go` are not used by the modelled logic.
- The `model.WithdrawInput` and `model.WithdrawOutput` declarations are not part of this model. Their fields follow their uses in the service and the repository.
- The serial `ID` column of orders is never read by the modelled logic.
- The checksum library (`luhn.Valid`) is not part of this model. `Luhn.Check` follows its loop as published, on Go's truncating `/` and `%`: a negative number, which the integer parser accepts, passes exactly when it is a multiple of ten, so `-10` is accepted as an order number.
- Repository.SendOrder: the table schema is not part of this model. The order number is taken to be the table's key, so inserting an existing number fails. The insert (internal/repository.go:109) sets the number, the user, the NEW status and the upload time but no accrual. The zero accrual stands for a column default in the schema.
- Repository.Register: the id comes from a counter above every existing id, as a serial column gives. A failure of the sequence itself is not modelled. The insert (internal/repository.go:58) sets only the login and the password. The zero balance and zero withdrawn stand for column defaults in the schema.
- Two behaviours of the worker are modelled as the code has them:
  - `ProcessAccrual` requeues a job on every non-200 status, with no cap on attempts and no delay of its own (internal/accrual.go:84-86 and 140-142). The only pause is the one-second sleep after every job in `Run` (internal/accrual.go:59), which is left out with the rest of the timing.
  - An INVALID reply is not a pending status, so it takes the credit branch. With no `accrual` field it credits zero (internal/accrual.go:99-121).

=== FILE: accrual.dfy ===
/** The accrual worker: one lookup against the external accrual oracle per
    queued (user, order) job, and the effect of its answer on the store.

    The HTTP exchange is an input here: `Reply` says whether a response
    arrived, its status code, and whether its body could be read and
    decoded. */
module Accrual {
  import opened Errors
  import opened Model
  import R = Repository

  /** A queued request to reconcile one order for its owner. */
  datatype Job = Job(uid: int, orderNumber: string)

  /** The decoded body `{"order", "status", "accrual"}`; the oracle omits
      `accrual` unless the status is PROCESSED. */
  datatype AccrualResponse = AccrualResponse(order: string, status: string, accrual: Option<real>)

  datatype Body = Unreadable | Malformed | Json(response: AccrualResponse)

  /** What came back from one GET: nothing (the request could not be built
      or sent), or a status code and a body. */
  datatype Reply = NoReply | Reply(code: int, body: Body)

  const OrdersPath: string := "/api/orders/"

  /** The lookup URL: the configured base address, the orders path, and
      the order number as submitted. */
  function RequestUrl(base: string, number: string): (url: string)
    ensures |url| == |base| + |OrdersPath| + |number|
    ensures url[..|base|] == base
    ensures url[|base|..|base| + |OrdersPath|] == OrdersPath
    ensures url[|base| + |OrdersPath|..] == number
  {
    base + OrdersPath + number
  }

  /** Two orders never share a lookup URL. */
  lemma RequestUrlInjective(base: string, a: string, b: string)
    requires RequestUrl(base, a) == RequestUrl(base, b)
    ensures a == b
  {
    var u := RequestUrl(base, a);
    assert a == u[|base| + |OrdersPath|..] == b;
  }

  /** `makeRequest`: any status other than 200 is reported as
      `TooManyRequests`, whatever it was; only a 200 body is read. */
  function MakeRequest(reply: Reply): (r: Result<Body>)
    ensures reply.NoReply? ==> r == Err(Transport)
    ensures r == Err(TooManyRequests) <==> reply.Reply? && reply.code != 200
    ensures r.Ok? <==> reply.Reply? && reply.code == 200 && !reply.body.Unreadable?
    ensures r.Ok? ==> r.value == reply.body
  {
    match reply
    case NoReply => Err(Transport)
    case Reply(code, body) =>
      if code != 200 then Err(TooManyRequests)
      else if body.Unreadable? then Err(BodyRead)
      else Ok(body)
  }

  /** An absent `accrual` field leaves the decoded amount at zero. */
  function AccrualOf(resp: AccrualResponse): real {
    match resp.accrual
    case None => 0.0
    case Some(a) => a
  }

  /** How one reply is acted on. */
  datatype Verdict =
    | RateLimited               // any non-200 status: try again later
    | Failed(reason: Error)     // no reply, or an unreadable body: give up
    | Unparsed                  // the body is not the expected JSON: give up
    | Pending(status: Status)   // REGISTERED or PROCESSING: record it, try again
    | Settled(status: Status, accrual: real)  // anything else: credit

  function Classify(reply: Reply): (v: Verdict)
    ensures v.RateLimited? <==> reply.Reply? && reply.code != 200
    ensures v.Failed? <==> reply.NoReply? || (reply.code == 200 && reply.body.Unreadable?)
    ensures v.Unparsed? <==> reply.Reply? && reply.code == 200 && reply.body.Malformed?
    ensures v.Pending? || v.Settled? <==> reply.Reply? && reply.code == 200 && reply.body.Json?
    ensures v.Pending? ==> v.status in {Registered, Processing} && Name(v.status) == reply.body.response.status
    ensures v.Settled? ==>
              && v.status !in {Registered, Processing}
              && Name(v.status) == reply.body.response.status
              && v.accrual == AccrualOf(reply.body.response)
  {
    match MakeRequest(reply)
    case Err(e) => if e == TooManyRequests then RateLimited else Failed(e)
    case Ok(body) =>
      if !body.Json? then Unparsed
      else
        var status := Parse(body.response.status);
        NameOfParse(body.response.status);
        if status == Registered || status == Processing then Pending(status)
        else Settled(status, AccrualOf(body.response))
  }

  /** The store after one job, the jobs it put back on the queue, and the
      repository calls it made. */
  datatype Step = Step(store: R.Store, requeue: seq<Job>, calls: seq<R.Call>)

  /** `ProcessAccrual`. `db.first` is the fault of its first repository
      call (the status update, or the balance read) and `db.second` that of
      the second (the accrual write). */
  function ProcessAccrual(st: R.Store, job: Job, reply: Reply, db: R.Faults): (r: Step)
    ensures r.requeue == [] || r.requeue == [job]
    ensures Classify(reply).RateLimited? ==> r == Step(st, [job], [])
    ensures Classify(reply).Failed? || Classify(reply).Unparsed? ==> r == Step(st, [], [])
    ensures Classify(reply).Pending? ==>
              && r.calls == [R.SetStatus(job.orderNumber, Classify(reply).status)]
              && r.store == R.UpdateOrderStatus(st, job.orderNumber, Classify(reply).status, db.first).store
              && (r.requeue == [job] <==> R.Runs(db.first, 0))
    ensures Classify(reply).Settled? ==> r.requeue == [] && |r.calls| >= 1 && r.calls[0] == R.ReadBalance(job.uid)
    ensures Classify(reply).Settled? && (job.uid !in st.users || !R.Runs(db.first, 0)) ==>
              r == Step(st, [], [R.ReadBalance(job.uid)])
    ensures Classify(reply).Settled? && job.uid in st.users && R.Runs(db.first, 0) ==>
              var v := Classify(reply);
              var balance := st.users[job.uid].balance + v.accrual;
              && r.calls == [R.ReadBalance(job.uid), R.WriteAccrual(job.uid, v.status, job.orderNumber, v.accrual, balance)]
              && r.store == R.MakeAccrual(st, job.uid, v.status, job.orderNumber, v.accrual, balance, db.second).store
    ensures R.Valid(st) ==> R.Valid(r.store)
  {
    match Classify(reply)
    case RateLimited => Step(st, [job], [])
    case Failed(_) => Step(st, [], [])
    case Unparsed => Step(st, [], [])
    case Pending(status) =>
      var w := R.UpdateOrderStatus(st, job.orderNumber, status, db.first);
      Step(w.store, if w.outcome.Pass? then [job] else [], [R.SetStatus(job.orderNumber, status)])
    case Settled(status, accrual) =>
      match R.GetBalanceByUserID(st, job.uid, db.first)
      case Err(_) => Step(st, [], [R.ReadBalance(job.uid)])
      case Ok(bw) =>
        var balance := bw.balance + accrual;
        var w := R.MakeAccrual(st, job.uid, status, job.orderNumber, accrual, balance, db.second);
        Step(w.store, [], [R.ReadBalance(job.uid), R.WriteAccrual(job.uid, status, job.orderNumber, accrual, balance)])
  }

  /** The credit branch ran to completion: the balance was read and both
      statements of the accrual write went through. */
  predicate CreditApplied(st: R.Store, job: Job, reply: Reply, db: R.Faults) {
    && Classify(reply).Settled?
    && job.uid in st.users
    && R.Runs(db.first, 0)
    && (db.second.Healthy? || db.second.statement >= 2)
  }

  /** One job moves money only by crediting its own user with exactly the
      decoded accrual, and never touches anyone's withdrawn total. */
  lemma ProcessAccrualLedger(st: R.Store, job: Job, reply: Reply, db: R.Faults, uid: int)
    ensures var r := ProcessAccrual(st, job, reply, db);
            && r.store.users.Keys == st.users.Keys
            && (uid in st.users ==> r.store.users[uid].withdrawn == st.users[uid].withdrawn)
            && R.Holding(r.store, uid) == R.Holding(st, uid)
                 + (if uid == job.uid && CreditApplied(st, job, reply, db) then Classify(reply).accrual else 0.0)
  {
  }

  /** A reply with no `accrual` field, such as an INVALID verdict, credits
      nothing even though it takes the credit branch. */
  lemma AbsentAccrualCreditsNothing(st: R.Store, job: Job, reply: Reply, db: R.Faults)
    requires reply.Reply? && reply.code == 200 && reply.body.Json? && reply.body.response.accrual.None?
    ensures forall u :: R.Holding(ProcessAccrual(st, job, reply, db).store, u) == R.Holding(st, u)
  {
    forall u {
      ProcessAccrualLedger(st, job, reply, db, u);
    }
  }
}

=== FILE: errors.dfy ===
/** The error values of the loyalty backend and the failure-carrying
    wrappers every layer returns.

    The enumeration lists the sentinel errors the service and the handlers
    compare against, including the three (`NoRecords`, `InsufficientFunds`,
    `TooManyRequests`) that the code uses without a declaration, and a few
    stand-ins for errors raised by libraries (the integer parser, the SQL
    driver, the HTTP client). */
module Errors {

  datatype Error =
    | LoginIsAlreadyTaken
    | InvalidCredentials
    | OrderIsAlreadySent
    | OrderIsAlreadySentByOtherUser
    | NoOrders            // declared, never returned
    | LuhnInvalid
    | NoRecords
    | InsufficientFunds
    | TooManyRequests
    | Syntax              // strconv: not an optionally signed decimal integer
    | Range               // strconv: outside the 64-bit integer range
    | NoRows              // sql: a single-row query matched nothing
    | Database            // any other failure reported by the SQL driver
    | Transport           // the oracle request could not be built or sent
    | BodyRead            // the oracle reply body could not be read

  datatype Option<+T> = None | Some(value: T)

  datatype Result<+T> = Ok(value: T) | Err(error: Error)

  /** A result that carries no value: `Pass` is Go's `nil` error. */
  datatype Outcome = Pass | Fail(error: Error)
}

=== FILE: handlers.dfy ===
/** The HTTP handlers: the request guards and the mapping of service
    errors to status codes, stated end to end in terms of the store.

    Routing, cookies and the JWT are left out: the caller's identity is
    an `Option<int>` (`None` when the token cannot be resolved), and a
    request body the JSON parser rejects is `None`. */
module Handlers {
  import opened Errors
  import opened Model
  import R = Repository
  import Numbers
  import Luhn
  import Service
  import Accrual

  const OK: int := 200
  const Accepted: int := 202
  const NoContent: int := 204
  const BadRequest: int := 400
  const Unauthorized: int := 401
  const PaymentRequired: int := 402
  const Conflict: int := 409
  const UnprocessableEntity: int := 422
  const InternalServerError: int := 500

  /** The status code sent, the store after the request, and the jobs it
      handed to the accrual queue. */
  datatype Response = Response(code: int, store: R.Store, enqueued: seq<Accrual.Job>)

  /** The number passes the integer parse and fails only the Luhn check. */
  predicate LuhnRejects(number: string) {
    Numbers.Atoi(number).Ok? && !Luhn.IsValid(Numbers.Atoi(number).value)
  }

  /** `Login`: 401 for unknown credentials, 500 for any other error. */
  method Login(st: R.Store, body: Option<LoginInput>, digest: string -> string, fault: R.Fault) returns (code: int)
    ensures code == BadRequest <==> body.None?
    ensures code == OK <==>
              body.Some? && R.Runs(fault, 0) && R.HasCredentials(st, body.value.login, digest(body.value.password))
    ensures code == Unauthorized <==>
              body.Some? && R.Runs(fault, 0) && !R.HasCredentials(st, body.value.login, digest(body.value.password))
    ensures code == InternalServerError <==> body.Some? && !R.Runs(fault, 0)
  {
    if body.None? {
      return BadRequest;
    }
    var r, _ := Service.Login(st, body.value.login, body.value.password, digest, fault);
    if r.Err? {
      if r.error == InvalidCredentials {
        return Unauthorized;
      }
      return InternalServerError;
    }
    return OK;
  }

  /** `Register`: 409 for a login that is taken, 500 for any other error. */
  function Register(st: R.Store, body: Option<LoginInput>, digest: string -> string, db: R.Faults): (r: Response)
    ensures r.enqueued == []
    ensures r.code in {BadRequest, Conflict, OK, InternalServerError}
    ensures r.code == BadRequest <==> body.None?
    ensures r.code == Conflict <==> body.Some? && R.Runs(db.first, 0) && R.LoginTaken(st, body.value.login)
    ensures r.code == OK <==>
              body.Some? && R.Runs(db.first, 0) && !R.LoginTaken(st, body.value.login) && R.Runs(db.second, 0)
    ensures r.code == InternalServerError <==>
              body.Some? && (!R.Runs(db.first, 0) || (!R.LoginTaken(st, body.value.login) && !R.Runs(db.second, 0)))
    ensures r.code != OK ==> r.store == st
  {
    if body.None? then Response(BadRequest, st, [])
    else
      var s := Service.Register(st, body.value.login, body.value.password, digest, db);
      if s.result.Err? then
        Response(if s.result.error == LoginIsAlreadyTaken then Conflict else InternalServerError, st, [])
      else Response(OK, s.store, [])
  }

  /** The value of the `Content-Type` request header, empty when absent. */
  function ContentType(headers: map<string, string>): string {
    if "Content-Type" in headers then headers["Content-Type"] else ""
  }

  /** `CreateOrder`: 202 when the order is new and queued, 200 when the
      caller already sent it, 409 when someone else did, 422 when it fails
      the Luhn check, 400 unless the body is declared `text/plain`
      exactly, 500 for everything else: a number that is not an integer,
      a failed lookup or insert, and an insert over a stored order that
      carries no owner. */
  function CreateOrder(st: R.Store, user: Option<int>, headers: map<string, string>, body: string, now: int, db: R.Faults): (r: Response)
    ensures r.code in {Unauthorized, BadRequest, Accepted, OK, Conflict, UnprocessableEntity, InternalServerError}
    ensures r.code == Unauthorized <==> user.None?
    ensures r.code == BadRequest <==> user.Some? && ContentType(headers) != "text/plain"
    ensures r.code == Accepted <==>
              && user.Some? && ContentType(headers) == "text/plain"
              && Service.CheckNumber(body).Pass? && R.Runs(db.first, 0) && R.Runs(db.second, 0)
              && body !in st.orders && user.value != -1
    ensures r.code == Accepted ==>
              && r.enqueued == [Accrual.Job(user.value, body)]
              && r.store.orders == st.orders[body := Order(body, user.value, 0.0, New, now)]
    ensures r.code != Accepted ==> r.store == st && r.enqueued == []
    ensures r.code == UnprocessableEntity <==>
              user.Some? && ContentType(headers) == "text/plain" && LuhnRejects(body)
    ensures r.code == OK <==>
              && user.Some? && ContentType(headers) == "text/plain"
              && Service.CheckNumber(body).Pass? && R.Runs(db.first, 0)
              && (if body in st.orders then st.orders[body].userId == user.value else user.value == -1)
    ensures r.code == Conflict <==>
              && user.Some? && ContentType(headers) == "text/plain"
              && Service.CheckNumber(body).Pass? && R.Runs(db.first, 0) && body in st.orders
              && st.orders[body].userId != user.value && st.orders[body].userId != -1
    ensures r.code == InternalServerError <==>
              && user.Some? && ContentType(headers) == "text/plain"
              && (|| Numbers.Atoi(body).Err?
                  || (Service.CheckNumber(body).Pass? && !R.Runs(db.first, 0))
                  || (&& Service.CheckNumber(body).Pass? && R.Runs(db.first, 0) && user.value != -1
                      && (if body in st.orders then st.orders[body].userId == -1 else !R.Runs(db.second, 0))))
  {
    if user.None? then Response(Unauthorized, st, [])
    else if ContentType(headers) != "text/plain" then Response(BadRequest, st, [])
    else
      var s := Service.SendOrder(st, body, user.value, now, db);
      var code :=
        match s.outcome
        case Pass => Accepted
        case Fail(e) =>
          if e == LuhnInvalid then UnprocessableEntity
          else if e == OrderIsAlreadySent then OK
          else if e == OrderIsAlreadySentByOtherUser then Conflict
          else InternalServerError;
      Response(code, s.store, s.enqueued)
  }

  /** `GetOrders`: 204 when the caller has no orders. */
  method GetOrders(st: R.Store, user: Option<int>, fault: R.Fault) returns (code: int)
    ensures code == Unauthorized <==> user.None?
    ensures code == NoContent <==> user.Some? && R.Runs(fault, 0) && R.OwnedBy(st, user.value) == {}
    ensures code == OK <==> user.Some? && R.Runs(fault, 0) && R.OwnedBy(st, user.value) != {}
    ensures code == InternalServerError <==> user.Some? && !R.Runs(fault, 0)
  {
    if user.None? {
      return Unauthorized;
    }
    var r, _ := Service.GetOrders(st, user.value, fault);
    if r.Err? {
      if r.error == NoRecords {
        return NoContent;
      }
      return InternalServerError;
    }
    return OK;
  }

  /** `GetBalance`: 500 for any error, an unknown user included. */
  function GetBalance(st: R.Store, user: Option<int>, fault: R.Fault): (code: int)
    ensures code == Unauthorized <==> user.None?
    ensures code == OK <==> user.Some? && R.Runs(fault, 0) && user.value in st.users
    ensures code == InternalServerError <==> user.Some? && (!R.Runs(fault, 0) || user.value !in st.users)
  {
    if user.None? then Unauthorized
    else if Service.GetBalanceByUserID(st, user.value, fault).Err? then InternalServerError
    else OK
  }

  /** The body guard of `Withdraw`: a parsed body with a non-empty order
      number and a sum other than zero. A negative sum passes. */
  predicate WithdrawBodyAccepted(body: Option<WithdrawInput>) {
    body.Some? && body.value.orderNumber != "" && body.value.sum != 0.0
  }

  /** `Withdraw`: 402 for insufficient funds, 422 for a Luhn failure, 400
      for a rejected body, 500 for any other error. */
  function Withdraw(st: R.Store, user: Option<int>, body: Option<WithdrawInput>, now: int, db: R.Faults): (r: Response)
    ensures r.enqueued == []
    ensures r.code in {Unauthorized, BadRequest, UnprocessableEntity, PaymentRequired, OK, InternalServerError}
    ensures r.code == Unauthorized <==> user.None?
    ensures r.code == Unauthorized ==> r.store == st
    ensures r.code == BadRequest <==> user.Some? && !WithdrawBodyAccepted(body)
    ensures r.code == BadRequest ==> r.store == st
    ensures r.code == UnprocessableEntity <==>
              user.Some? && WithdrawBodyAccepted(body) && LuhnRejects(body.value.orderNumber)
    ensures r.code == PaymentRequired <==>
              && user.Some? && WithdrawBodyAccepted(body)
              && Service.CheckNumber(body.value.orderNumber).Pass? && R.Runs(db.first, 0)
              && user.value in st.users && st.users[user.value].balance < body.value.sum
    ensures r.code == OK <==>
              && user.Some? && WithdrawBodyAccepted(body)
              && Service.CheckNumber(body.value.orderNumber).Pass? && R.Runs(db.first, 0)
              && user.value in st.users && st.users[user.value].balance >= body.value.sum
              && (db.second.Healthy? || db.second.statement >= 2)
    ensures r.code == InternalServerError <==>
              && user.Some? && WithdrawBodyAccepted(body)
              && (|| Numbers.Atoi(body.value.orderNumber).Err?
                  || (&& Service.CheckNumber(body.value.orderNumber).Pass?
                      && (|| !R.Runs(db.first, 0)
                          || user.value !in st.users
                          || (&& st.users[user.value].balance >= body.value.sum
                              && !(db.second.Healthy? || db.second.statement >= 2)))))
    ensures r.store.users.Keys == st.users.Keys
    ensures r.code == OK ==>
              r.store.users[user.value].balance == st.users[user.value].balance - body.value.sum
    ensures r.code != OK ==> r.store.users == st.users
    ensures r.code in {UnprocessableEntity, PaymentRequired} ==> r.store == st
    ensures forall u :: R.Holding(r.store, u) == R.Holding(st, u)
  {
    if user.None? then Response(Unauthorized, st, [])
    else if !WithdrawBodyAccepted(body) then Response(BadRequest, st, [])
    else
      var s := Service.Withdraw(st, body.value, user.value, now, db);
      var code :=
        match s.outcome
        case Pass => OK
        case Fail(e) =>
          if e == LuhnInvalid then UnprocessableEntity
          else if e == InsufficientFunds then PaymentRequired
          else InternalServerError;
      Response(code, s.store, [])
  }

  /** A negative sum gets past both guards and is paid out as a credit:
      the balance goes up by its magnitude and the withdrawn total down. */
  lemma NegativeWithdrawRaisesBalance(st: R.Store, uid: int, body: WithdrawInput, now: int)
    requires uid in st.users && st.users[uid].balance >= 0.0
    requires body.sum < 0.0 && body.orderNumber != ""
    requires Service.CheckNumber(body.orderNumber).Pass?
    ensures var r := Withdraw(st, Some(uid), Some(body), now, R.NoFaults);
            && r.code == OK
            && r.store.users[uid].balance > st.users[uid].balance
            && r.store.users[uid].withdrawn < st.users[uid].withdrawn
  {
  }

  /** `WithdrawHistory`: 204 when the caller has never withdrawn. */
  function WithdrawHistory(st: R.Store, user: Option<int>, fault: R.Fault): (code: int)
    ensures code == Unauthorized <==> user.None?
    ensures code == NoContent <==> user.Some? && R.Runs(fault, 0) && R.Own(st.history, user.value) == []
    ensures code == OK <==> user.Some? && R.Runs(fault, 0) && R.Own(st.history, user.value) != []
    ensures code == InternalServerError <==> user.Some? && !R.Runs(fault, 0)
  {
    if user.None? then Unauthorized
    else
      match Service.GetWithdrawHistory(st, user.value, fault)
      case Ok(_) => OK
      case Err(e) => if e == NoRecords then NoContent else InternalServerError
  }
}

=== FILE: ledger.dfy ===
/** The backend as one state machine: the store, the accrual queue, and
    the log of repository calls issued so far. The requests that write to
    the store (registration, order submission, withdrawal) and the accrual
    worker's turns are interleaved one at a time; the worker takes the job
    at the head of the queue and puts any job it retries at the back. The
    read-only requests (login, order list, balance, withdrawal history)
    change nothing and are not events.

    Over any history from the empty store: each order gets at most one
    accrual write, an order with a settled status has had exactly one,
    an order that got one never changes again, the write
    goes to the order's owner, and every change in a user's holdings is an
    accrual credit. */
module Ledger {
  import opened Errors
  import opened Model
  import R = Repository
  import Accrual
  import Service

  datatype System = System(store: R.Store, queue: seq<Accrual.Job>, log: seq<R.Call>)

  /** A request reaching the service, or one turn of the accrual worker.
      A sign-up carries the password's digest: the hash function is a
      parameter of the service, and the identity is passed for it. */
  datatype Event =
    | SignUp(login: string, hashed: string, db: R.Faults)
    | Submit(uid: int, number: string, now: int, db: R.Faults)
    | Lookup(reply: Accrual.Reply, db: R.Faults)
    | Withdrawal(uid: int, input: WithdrawInput, now: int, db: R.Faults)

  const Init: System := System(R.Empty, [], [])

  function Next(s: System, e: Event): System {
    match e
    case SignUp(login, hashed, db) =>
      var r := Service.Register(s.store, login, hashed, h => h, db);
      System(r.store, s.queue, s.log + r.calls)
    case Submit(uid, number, now, db) =>
      var r := Service.SendOrder(s.store, number, uid, now, db);
      System(r.store, s.queue + r.enqueued, s.log + r.calls)
    case Lookup(reply, db) =>
      if s.queue == [] then s
      else
        var r := Accrual.ProcessAccrual(s.store, s.queue[0], reply, db);
        System(r.store, s.queue[1..] + r.requeue, s.log + r.calls)
    case Withdrawal(uid, input, now, db) =>
      var r := Service.Withdraw(s.store, input, uid, now, db);
      System(r.store, s.queue, s.log + r.calls)
  }

  function Replay(s: System, events: seq<Event>): System
    decreases |events|
  {
    if events == [] then s else Replay(Next(s, events[0]), events[1..])
  }

  // ----- the invariant -----

  /** Every queued job names a stored order and that order's owner. */
  predicate QueueStored(st: R.Store, queue: seq<Accrual.Job>) {
    forall k :: 0 <= k < |queue| ==>
      queue[k].orderNumber in st.orders && st.orders[queue[k].orderNumber].userId == queue[k].uid
  }

  /** No order is queued twice. */
  predicate QueueDistinct(queue: seq<Accrual.Job>) {
    forall i, j :: 0 <= i < j < |queue| ==> queue[i].orderNumber != queue[j].orderNumber
  }

  /** Every accrual write in the log was for a stored order and credited
      that order's owner. */
  predicate LogStored(st: R.Store, log: seq<R.Call>) {
    forall k :: 0 <= k < |log| && log[k].WriteAccrual? ==>
      log[k].number in st.orders && st.orders[log[k].number].userId == log[k].uid
  }

  /** No order with an accrual write is still queued. */
  predicate LogDisjoint(log: seq<R.Call>, queue: seq<Accrual.Job>) {
    forall k, q :: 0 <= k < |log| && 0 <= q < |queue| && log[k].WriteAccrual? ==>
      log[k].number != queue[q].orderNumber
  }

  /** No order appears in two accrual writes. */
  predicate AccruedOnce(log: seq<R.Call>) {
    forall i, j :: 0 <= i < j < |log| && log[i].WriteAccrual? && log[j].WriteAccrual? ==>
      log[i].number != log[j].number
  }

  /** A status the worker still polls for, or the one an order is stored
      with. Any other status reaches the store only through the accrual
      write. */
  predicate Open(status: Status) {
    status == New || status == Registered || status == Processing
  }

  /** Every stored order that carries a settled status has had its
      accrual write. */
  predicate SettledAccrued(st: R.Store, log: seq<R.Call>) {
    forall n :: n in st.orders && !Open(st.orders[n].status) ==> Accrued(log, n)
  }

  /** No order of the later store is settled unless it was settled in the
      earlier one. */
  predicate ClosesNothing(a: R.Store, b: R.Store) {
    forall n :: n in b.orders && !Open(b.orders[n].status) ==> n in a.orders && !Open(a.orders[n].status)
  }

  predicate Inv(s: System) {
    && R.Valid(s.store)
    && SettledAccrued(s.store, s.log)
    && QueueStored(s.store, s.queue)
    && QueueDistinct(s.queue)
    && LogStored(s.store, s.log)
    && LogDisjoint(s.log, s.queue)
    && AccruedOnce(s.log)
  }

  predicate Accrued(log: seq<R.Call>, number: string) {
    exists k :: 0 <= k < |log| && log[k].WriteAccrual? && log[k].number == number
  }

  /** The later store keeps every order of the earlier one, with its owner. */
  predicate OwnersKept(a: R.Store, b: R.Store) {
    forall n :: n in a.orders ==> n in b.orders && b.orders[n].userId == a.orders[n].userId
  }

  /** The calls contain no accrual write. */
  predicate NoAccrualWrite(calls: seq<R.Call>) {
    forall k :: 0 <= k < |calls| ==> !calls[k].WriteAccrual?
  }

  lemma InitInv()
    ensures Inv(Init)
  {
  }

  // ----- helper lemmas about the parts of the invariant -----

  /** Appending calls without an accrual write leaves the log-side parts
      of the invariant to the queue and the store. */
  lemma AppendPlain(a: R.Store, b: R.Store, log: seq<R.Call>, calls: seq<R.Call>, queue: seq<Accrual.Job>, queue2: seq<Accrual.Job>)
    requires LogStored(a, log) && AccruedOnce(log) && LogDisjoint(log, queue)
    requires OwnersKept(a, b) && NoAccrualWrite(calls)
    requires forall q :: 0 <= q < |queue2| ==> queue2[q].orderNumber !in a.orders || queue2[q] in queue
    ensures LogStored(b, log + calls) && AccruedOnce(log + calls)
    ensures LogDisjoint(log, queue2) ==> LogDisjoint(log + calls, queue2)
  {
    var l2 := log + calls;
    forall k | |log| <= k < |l2|
      ensures !l2[k].WriteAccrual?
    {
      assert l2[k] == calls[k - |log|];
    }
  }

  /** Removing the head of a distinct queue, and perhaps putting it back
      at the end, keeps the queue distinct. */
  lemma RotateDistinct(queue: seq<Accrual.Job>, requeue: seq<Accrual.Job>)
    requires queue != [] && QueueDistinct(queue)
    requires requeue == [] || requeue == [queue[0]]
    ensures QueueDistinct(queue[1..] + requeue)
  {
    var q2 := queue[1..] + requeue;
    forall i, j | 0 <= i < j < |q2|
      ensures q2[i].orderNumber != q2[j].orderNumber
    {
      if j < |queue| - 1 {
        assert q2[i] == queue[i + 1] && q2[j] == queue[j + 1];
      } else {
        assert q2[i] == queue[i + 1] && q2[j] == queue[0];
      }
    }
  }

  /** Every job of the rotated queue was in the queue before. */
  lemma RotateMembers(queue: seq<Accrual.Job>, requeue: seq<Accrual.Job>)
    requires queue != []
    requires requeue == [] || requeue == [queue[0]]
    ensures forall x :: x in queue[1..] + requeue ==> x in queue
  {
    var q2 := queue[1..] + requeue;
    forall q | 0 <= q < |q2|
      ensures q2[q] in queue
    {
      if q < |queue| - 1 {
        assert queue[q + 1] == q2[q];
      } else {
        assert queue[0] == q2[q];
      }
    }
  }

  /** An accrual write stays in the log as the log grows. */
  lemma AccruedGrows(log: seq<R.Call>, calls: seq<R.Call>, n: string)
    requires Accrued(log, n)
    ensures Accrued(log + calls, n)
  {
    var k :| 0 <= k < |log| && log[k].WriteAccrual? && log[k].number == n;
    assert (log + calls)[k] == log[k];
  }

  /** A step that settles no order keeps every settled order accrued. */
  lemma SettledKept(a: R.Store, b: R.Store, log: seq<R.Call>, calls: seq<R.Call>)
    requires SettledAccrued(a, log) && ClosesNothing(a, b)
    ensures SettledAccrued(b, log + calls)
  {
    forall n | n in b.orders && !Open(b.orders[n].status)
      ensures Accrued(log + calls, n)
    {
      AccruedGrows(log, calls, n);
    }
  }

  /** A step that settles at most the order `m`, and logs the accrual
      write for it, keeps every settled order accrued. */
  lemma SettledByWrite(a: R.Store, b: R.Store, log: seq<R.Call>, calls: seq<R.Call>, m: string)
    requires SettledAccrued(a, log) && Accrued(log + calls, m)
    requires forall n :: n in b.orders && !Open(b.orders[n].status) && n != m ==> n in a.orders && !Open(a.orders[n].status)
    ensures SettledAccrued(b, log + calls)
  {
    forall n | n in b.orders && !Open(b.orders[n].status)
      ensures Accrued(log + calls, n)
    {
      if n != m {
        AccruedGrows(log, calls, n);
      }
    }
  }

  // ----- preservation, one kind of event at a time -----

  lemma SignUpKeepsInv(s: System, login: string, hashed: string, db: R.Faults)
    requires Inv(s)
    ensures Inv(Next(s, SignUp(login, hashed, db)))
  {
    var r := Service.Register(s.store, login, hashed, h => h, db);
    assert OwnersKept(s.store, r.store);
    assert NoAccrualWrite(r.calls);
    AppendPlain(s.store, r.store, s.log, r.calls, s.queue, s.queue);
    SettledKept(s.store, r.store, s.log, r.calls);
  }

  lemma SubmitKeepsInv(s: System, uid: int, number: string, now: int, db: R.Faults)
    requires Inv(s)
    ensures Inv(Next(s, Submit(uid, number, now, db)))
  {
    var r := Service.SendOrder(s.store, number, uid, now, db);
    var s2 := Next(s, Submit(uid, number, now, db));
    assert OwnersKept(s.store, r.store);
    assert NoAccrualWrite(r.calls);
    forall q | 0 <= q < |s2.queue|
      ensures s2.queue[q].orderNumber !in s.store.orders || s2.queue[q] in s.queue
    {
      if q < |s.queue| {
        assert s.queue[q] == s2.queue[q];
      }
    }
    if r.outcome.Pass? {
      assert s2.queue == s.queue + [Accrual.Job(uid, number)];
      assert number !in s.store.orders;
      assert QueueStored(r.store, s2.queue);
      assert LogDisjoint(s.log, s2.queue);
    } else {
      assert s2.queue == s.queue;
    }
    AppendPlain(s.store, r.store, s.log, r.calls, s.queue, s2.queue);
    SettledKept(s.store, r.store, s.log, r.calls);
  }

  lemma WithdrawalKeepsInv(s: System, uid: int, input: WithdrawInput, now: int, db: R.Faults)
    requires Inv(s)
    ensures Inv(Next(s, Withdrawal(uid, input, now, db)))
  {
    var r := Service.Withdraw(s.store, input, uid, now, db);
    assert NoAccrualWrite(r.calls);
    AppendPlain(s.store, r.store, s.log, r.calls, s.queue, s.queue);
    SettledKept(s.store, r.store, s.log, r.calls);
  }

  /** A worker turn that writes no accrual: the head job is dropped or
      moved to the back, and the store keeps every order and its owner. */
  lemma PlainTurnKeepsInv(s: System, r: Accrual.Step)
    requires Inv(s) && s.queue != [] && R.Valid(r.store)
    requires r.requeue == [] || r.requeue == [s.queue[0]]
    requires OwnersKept(s.store, r.store) && r.store.orders.Keys == s.store.orders.Keys
    requires NoAccrualWrite(r.calls) && ClosesNothing(s.store, r.store)
    ensures Inv(System(r.store, s.queue[1..] + r.requeue, s.log + r.calls))
  {
    SettledKept(s.store, r.store, s.log, r.calls);
    var q2 := s.queue[1..] + r.requeue;
    RotateDistinct(s.queue, r.requeue);
    RotateMembers(s.queue, r.requeue);
    assert QueueStored(r.store, q2);
    AppendPlain(s.store, r.store, s.log, r.calls, s.queue, q2);
  }

  /** The credit turn: the head job leaves the queue for good and its one
      accrual write names its order and that order's owner. */
  lemma CreditTurnKeepsInv(s: System, r: Accrual.Step, w: R.Call)
    requires Inv(s) && s.queue != [] && R.Valid(r.store)
    requires r.requeue == []
    requires OwnersKept(s.store, r.store) && r.store.orders.Keys == s.store.orders.Keys
    requires r.calls == [R.ReadBalance(s.queue[0].uid), w]
    requires w.WriteAccrual? && w.number == s.queue[0].orderNumber && w.uid == s.queue[0].uid
    requires forall n :: n in r.store.orders && !Open(r.store.orders[n].status) && n != w.number ==>
               n in s.store.orders && !Open(s.store.orders[n].status)
    ensures Inv(System(r.store, s.queue[1..] + r.requeue, s.log + r.calls))
  {
    assert (s.log + r.calls)[|s.log| + 1] == w;
    SettledByWrite(s.store, r.store, s.log, r.calls, w.number);
    var job := s.queue[0];
    var q2 := s.queue[1..];
    var l2 := s.log + r.calls;
    RotateDistinct(s.queue, []);
    assert q2 == s.queue[1..] + [];
    assert QueueStored(r.store, q2) by {
      forall k | 0 <= k < |q2|
        ensures q2[k].orderNumber in r.store.orders && r.store.orders[q2[k].orderNumber].userId == q2[k].uid
      {
        assert q2[k] == s.queue[k + 1];
      }
    }
    assert l2[|s.log| + 1] == w;
    assert LogStored(r.store, l2) by {
      forall k | 0 <= k < |l2| && l2[k].WriteAccrual?
        ensures l2[k].number in r.store.orders && r.store.orders[l2[k].number].userId == l2[k].uid
      {
        if k < |s.log| {
          assert l2[k] == s.log[k];
        } else {
          assert k == |s.log| + 1;
        }
      }
    }
    assert LogDisjoint(l2, q2) by {
      forall k, q | 0 <= k < |l2| && 0 <= q < |q2| && l2[k].WriteAccrual?
        ensures l2[k].number != q2[q].orderNumber
      {
        assert q2[q] == s.queue[q + 1];
        if k < |s.log| {
          assert l2[k] == s.log[k];
        } else {
          assert k == |s.log| + 1;
          assert s.queue[0].orderNumber != s.queue[q + 1].orderNumber;
        }
      }
    }
    assert AccruedOnce(l2) by {
      forall i, j | 0 <= i < j < |l2| && l2[i].WriteAccrual? && l2[j].WriteAccrual?
        ensures l2[i].number != l2[j].number
      {
        if j < |s.log| {
          assert l2[i] == s.log[i] && l2[j] == s.log[j];
        } else {
          assert j == |s.log| + 1;
          assert i < |s.log|;
          assert l2[i] == s.log[i];
        }
      }
    }
  }

  lemma LookupKeepsInv(s: System, reply: Accrual.Reply, db: R.Faults)
    requires Inv(s)
    ensures Inv(Next(s, Lookup(reply, db)))
  {
    if s.queue != [] {
      var job := s.queue[0];
      var r := Accrual.ProcessAccrual(s.store, job, reply, db);
      var v := Accrual.Classify(reply);
      if v.Settled? && job.uid in s.store.users && R.Runs(db.first, 0) {
        var balance := s.store.users[job.uid].balance + v.accrual;
        CreditTurnKeepsInv(s, r, R.WriteAccrual(job.uid, v.status, job.orderNumber, v.accrual, balance));
      } else {
        assert NoAccrualWrite(r.calls);
        PlainTurnKeepsInv(s, r);
      }
    }
  }

  /** Every event keeps the invariant. */
  lemma NextKeepsInv(s: System, e: Event)
    requires Inv(s)
    ensures Inv(Next(s, e))
  {
    match e
    case SignUp(login, hashed, db) => SignUpKeepsInv(s, login, hashed, db);
    case Submit(uid, number, now, db) => SubmitKeepsInv(s, uid, number, now, db);
    case Lookup(reply, db) => LookupKeepsInv(s, reply, db);
    case Withdrawal(uid, input, now, db) => WithdrawalKeepsInv(s, uid, input, now, db);
  }

  lemma {:induction false} ReplayKeepsInv(s: System, events: seq<Event>)
    requires Inv(s)
    ensures Inv(Replay(s, events))
    decreases |events|
  {
    if events != [] {
      NextKeepsInv(s, events[0]);
      ReplayKeepsInv(Next(s, events[0]), events[1..]);
    }
  }

  /** Over any history from the empty system, no order is sent to the
      accrual write twice, and every accrual write credits the order's
      owner. */
  lemma AccruedAtMostOnce(events: seq<Event>)
    ensures AccruedOnce(Replay(Init, events).log)
    ensures LogStored(Replay(Init, events).store, Replay(Init, events).log)
  {
    InitInv();
    ReplayKeepsInv(Init, events);
  }

  /** Over any history from the empty system, an order that carries a
      settled status, PROCESSED among them, has had exactly one accrual
      write: there is one, and any two are the same call. */
  lemma SettledAccruedExactlyOnce(events: seq<Event>, n: string)
    requires n in Replay(Init, events).store.orders
    requires !Open(Replay(Init, events).store.orders[n].status)
    ensures Accrued(Replay(Init, events).log, n)
    ensures var log := Replay(Init, events).log;
            forall i, j ::
              (0 <= i < |log| && 0 <= j < |log| && log[i].WriteAccrual? && log[i].number == n
               && log[j].WriteAccrual? && log[j].number == n) ==> i == j
  {
    InitInv();
    ReplayKeepsInv(Init, events);
  }

  /** Once an order has had its accrual write, no later event changes it. */
  lemma AccruedFrozen(s: System, e: Event, number: string)
    requires Inv(s) && Accrued(s.log, number)
    ensures number in Next(s, e).store.orders
    ensures Next(s, e).store.orders[number] == s.store.orders[number]
  {
    var k :| 0 <= k < |s.log| && s.log[k].WriteAccrual? && s.log[k].number == number;
    assert number in s.store.orders;
    match e
    case SignUp(login, hashed, db) =>
    case Submit(uid, n, now, db) =>
    case Withdrawal(uid, input, now, db) =>
    case Lookup(reply, db) =>
      if s.queue != [] {
        assert s.queue[0].orderNumber != number;
      }
  }

  // ----- money -----

  /** What one event credits to user `u`: the decoded accrual, when the
      event is a worker turn on one of `u`'s jobs whose credit went
      through; nothing otherwise. */
  function Credit(s: System, e: Event, u: int): real {
    if e.Lookup? && s.queue != [] && s.queue[0].uid == u && Accrual.CreditApplied(s.store, s.queue[0], e.reply, e.db)
    then Accrual.Classify(e.reply).accrual
    else 0.0
  }

  function Credits(s: System, events: seq<Event>, u: int): real
    decreases |events|
  {
    if events == [] then 0.0 else Credit(s, events[0], u) + Credits(Next(s, events[0]), events[1..], u)
  }

  /** A user's holdings, balance plus withdrawn, change by exactly the
      credit of the event: sign-ups, submissions and withdrawals move
      none. A sign-up relies on the serial id being fresh. */
  lemma NextConserves(s: System, e: Event, u: int)
    requires e.SignUp? ==> R.Valid(s.store)
    ensures R.Holding(Next(s, e).store, u) == R.Holding(s.store, u) + Credit(s, e, u)
  {
    if e.Lookup? && s.queue != [] {
      Accrual.ProcessAccrualLedger(s.store, s.queue[0], e.reply, e.db, u);
    }
  }

  lemma {:induction false} ReplayConserves(s: System, events: seq<Event>, u: int)
    requires Inv(s)
    ensures R.Holding(Replay(s, events).store, u) == R.Holding(s.store, u) + Credits(s, events, u)
    decreases |events|
  {
    if events != [] {
      NextKeepsInv(s, events[0]);
      NextConserves(s, events[0], u);
      ReplayConserves(Next(s, events[0]), events[1..], u);
    }
  }

  // ----- whole lifecycles -----

  /** A 200 reply from the oracle carrying `status` and, optionally, an
      accrual. */
  function Oracle(number: string, status: string, accrual: Option<real>): Accrual.Reply {
    Accrual.Reply(200, Accrual.Json(Accrual.AccrualResponse(number, status, accrual)))
  }

  /** A fault-free submission of a new valid order by a user puts the
      order on the empty queue and moves no money. */
  lemma SubmitTurn(s: System, uid: int, number: string, now: int)
    requires s.queue == [] && uid != -1 && number !in s.store.orders
    requires Service.CheckNumber(number).Pass?
    ensures var s1 := Next(s, Submit(uid, number, now, R.NoFaults));
            && s1.queue == [Accrual.Job(uid, number)]
            && s1.store.orders == s.store.orders[number := Order(number, uid, 0.0, New, now)]
            && s1.store.users == s.store.users
  {
  }

  /** A fault-free worker turn on the only queued job, with a pending
      verdict, records the status and keeps the job queued. */
  lemma PendingTurn(s: System, reply: Accrual.Reply)
    requires |s.queue| == 1 && s.queue[0].orderNumber in s.store.orders
    requires Accrual.Classify(reply).Pending?
    ensures var s1 := Next(s, Lookup(reply, R.NoFaults));
            && s1.queue == s.queue
            && s1.store.orders == s.store.orders[s.queue[0].orderNumber :=
                 s.store.orders[s.queue[0].orderNumber].(status := Accrual.Classify(reply).status)]
            && s1.store.users == s.store.users
  {
  }

  /** A fault-free worker turn on the only queued job, with a settled
      verdict, records status and accrual, credits the owner and empties
      the queue. */
  lemma SettleTurn(s: System, reply: Accrual.Reply)
    requires |s.queue| == 1 && s.queue[0].orderNumber in s.store.orders && s.queue[0].uid in s.store.users
    requires Accrual.Classify(reply).Settled?
    ensures var s1 := Next(s, Lookup(reply, R.NoFaults));
            var job := s.queue[0];
            && s1.queue == []
            && job.orderNumber in s1.store.orders
            && s1.store.orders[job.orderNumber].status == Accrual.Classify(reply).status
            && s1.store.orders[job.orderNumber].accrual == Accrual.Classify(reply).accrual
            && job.uid in s1.store.users
            && s1.store.users[job.uid].balance == s.store.users[job.uid].balance + Accrual.Classify(reply).accrual
            && Accrued(s1.log, job.orderNumber)
  {
    var s1 := Next(s, Lookup(reply, R.NoFaults));
    assert s1.log[|s.log| + 1].WriteAccrual?;
  }

  lemma ClassifyOracle(number: string, amount: real)
    ensures Accrual.Classify(Oracle(number, "PROCESSING", None)) == Accrual.Pending(Processing)
    ensures Accrual.Classify(Oracle(number, "PROCESSED", Some(amount))) == Accrual.Settled(Processed, amount)
    ensures Accrual.Classify(Oracle(number, "INVALID", None)) == Accrual.Settled(Invalid, 0.0)
  {
    ParseOfName(Processing);
    ParseOfName(Processed);
    ParseOfName(Invalid);
  }

  /** Three events in a row. */
  lemma ReplayThree(s: System, e1: Event, e2: Event, e3: Event)
    ensures Replay(s, [e1, e2, e3]) == Next(Next(Next(s, e1), e2), e3)
  {
    var s1 := Next(s, e1);
    var s2 := Next(s1, e2);
    assert [e1, e2, e3][1..] == [e2, e3] && [e2, e3][1..] == [e3] && [e3][1..] == [];
    assert Replay(s2, [e3]) == Replay(Next(s2, e3), []);
    assert Replay(s1, [e2, e3]) == Replay(s2, [e3]);
  }

  /** A valid order submitted by a user with no faults, looked up once as
      PROCESSING and then as PROCESSED with an accrual, ends PROCESSED with
      that accrual, off the queue, with its one accrual write, and with the
      owner's balance up by exactly that amount. */
  lemma ProcessedLifecycle(s: System, uid: int, number: string, now: int, amount: real)
    requires s.queue == [] && uid in s.store.users && uid != -1 && number !in s.store.orders
    requires Service.CheckNumber(number).Pass?
    ensures var s3 := Replay(s, [Submit(uid, number, now, R.NoFaults),
                                 Lookup(Oracle(number, "PROCESSING", None), R.NoFaults),
                                 Lookup(Oracle(number, "PROCESSED", Some(amount)), R.NoFaults)]);
            && s3.queue == []
            && number in s3.store.orders
            && s3.store.orders[number].status == Processed
            && s3.store.orders[number].accrual == amount
            && uid in s3.store.users
            && s3.store.users[uid].balance == s.store.users[uid].balance + amount
            && Accrued(s3.log, number)
  {
    var e1 := Submit(uid, number, now, R.NoFaults);
    var e2 := Lookup(Oracle(number, "PROCESSING", None), R.NoFaults);
    var e3 := Lookup(Oracle(number, "PROCESSED", Some(amount)), R.NoFaults);
    ClassifyOracle(number, amount);
    SubmitTurn(s, uid, number, now);
    var s1 := Next(s, e1);
    PendingTurn(s1, e2.reply);
    var s2 := Next(s1, e2);
    SettleTurn(s2, e3.reply);
    ReplayThree(s, e1, e2, e3);
  }

  /** A valid order whose first lookup is refused with a non-200 status
      and whose second comes back INVALID, with no accrual field, ends
      INVALID and off the queue, and moves no money. */
  lemma InvalidLifecycle(s: System, uid: int, number: string, now: int, refusal: int)
    requires s.queue == [] && uid in s.store.users && uid != -1 && number !in s.store.orders
    requires Service.CheckNumber(number).Pass? && refusal != 200
    ensures var s3 := Replay(s, [Submit(uid, number, now, R.NoFaults),
                                 Lookup(Accrual.Reply(refusal, Accrual.Unreadable), R.NoFaults),
                                 Lookup(Oracle(number, "INVALID", None), R.NoFaults)]);
            && s3.queue == []
            && number in s3.store.orders
            && s3.store.orders[number].status == Invalid
            && (forall u :: R.Holding(s3.store, u) == R.Holding(s.store, u))
  {
    var e1 := Submit(uid, number, now, R.NoFaults);
    var e2 := Lookup(Accrual.Reply(refusal, Accrual.Unreadable), R.NoFaults);
    var e3 := Lookup(Oracle(number, "INVALID", None), R.NoFaults);
    ClassifyOracle(number, 0.0);
    SubmitTurn(s, uid, number, now);
    var s1 := Next(s, e1);
    var s2 := Next(s1, e2);
    assert s2.store == s1.store && s2.queue == s1.queue;
    SettleTurn(s2, e3.reply);
    var s3 := Next(s2, e3);
    ReplayThree(s, e1, e2, e3);
    forall u
      ensures R.Holding(s3.store, u) == R.Holding(s.store, u)
    {
      NextConserves(s, e1, u);
      NextConserves(s1, e2, u);
      NextConserves(s2, e3, u);
    }
  }

  /** The first credit reachable from the empty system: a user signs up
      and gets serial id 1, submits a valid order, and the oracle reports
      it PROCESSED with an accrual. The order is then accrued once, owned
      by that user, and the balance is exactly the accrual. */
  lemma FirstCredit(login: string, hashed: string, number: string, now: int, amount: real)
    requires Service.CheckNumber(number).Pass?
    ensures var s3 := Replay(Init, [SignUp(login, hashed, R.NoFaults),
                                    Submit(1, number, now, R.NoFaults),
                                    Lookup(Oracle(number, "PROCESSED", Some(amount)), R.NoFaults)]);
            && s3.queue == []
            && Accrued(s3.log, number)
            && number in s3.store.orders && s3.store.orders[number].userId == 1
            && 1 in s3.store.users && s3.store.users[1].balance == amount
  {
    var e1 := SignUp(login, hashed, R.NoFaults);
    var e2 := Submit(1, number, now, R.NoFaults);
    var e3 := Lookup(Oracle(number, "PROCESSED", Some(amount)), R.NoFaults);
    ClassifyOracle(number, amount);
    var s1 := Next(Init, e1);
    assert s1.store.users == map[1 := R.Account(login, hashed, 0.0, 0.0)];
    assert s1.queue == [] && s1.store.orders == map[];
    SubmitTurn(s1, 1, number, now);
    var s2 := Next(s1, e2);
    SettleTurn(s2, e3.reply);
    ReplayThree(Init, e1, e2, e3);
  }
}

=== FILE: luhn.dfy ===
/** The Luhn mod-10 check digit of ISO/IEC 7812-1, Annex B: counting from
    the rightmost (check) digit, every second digit is doubled and replaced
    by the sum of the digits of its double; the number is valid when the
    total is a multiple of ten. */
module Luhn {
  import opened Numbers

  /** What one digit adds to the total. */
  function Weight(d: nat, doubled: bool): (w: nat)
    requires d < 10
    ensures w < 10
    ensures !doubled ==> w == d
  {
    if !doubled then d else if 2 * d > 9 then 2 * d - 9 else 2 * d
  }

  /** The Luhn total over the decimal digits of `n`, rightmost first;
      `doubled` says whether the rightmost digit is one of the doubled ones. */
  function Total(n: nat, doubled: bool): nat
    decreases n
  {
    if n == 0 then 0 else Weight(n % 10, doubled) + Total(n / 10, !doubled)
  }

  /** The check the order and withdrawal numbers must pass. For a
      negative number the library's digit loop never runs, since the
      truncated quotient is not positive, and what is left is the
      truncated remainder of the last digit: a negative number is valid
      exactly when it is a multiple of ten. */
  predicate IsValid(n: int) {
    if n >= 0 then Total(n, false) % 10 == 0 else n % 10 == 0
  }

  /** The same total read off a digit string, rightmost character first. */
  function TextTotal(s: string, doubled: bool): nat
    requires AllDigits(s)
    decreases |s|
  {
    if s == [] then 0
    else Weight(DigitValue(s[|s| - 1]), doubled) + TextTotal(s[..|s| - 1], !doubled)
  }

  /** The check as the standard states it, on the digits as written. */
  predicate TextIsValid(s: string)
    requires AllDigits(s)
  {
    TextTotal(s, false) % 10 == 0
  }

  lemma {:induction false} TextTotalAgrees(s: string, doubled: bool)
    requires AllDigits(s)
    ensures TextTotal(s, doubled) == Total(DigitsValue(s), doubled)
    decreases |s|
  {
    if s != [] {
      var init := s[..|s| - 1];
      var d := DigitValue(s[|s| - 1]);
      TextTotalAgrees(init, !doubled);
      var n := DigitsValue(s);
      assert n == 10 * DigitsValue(init) + d;
      assert n % 10 == d && n / 10 == DigitsValue(init);
      if n == 0 {
        assert d == 0 && DigitsValue(init) == 0;
      }
    }
  }

  /** Checking the integer the parser produced is the same as checking the
      digits the client sent: leading zeros add nothing to the total. */
  lemma TextCheckAgrees(s: string)
    requires AllDigits(s)
    ensures TextIsValid(s) <==> IsValid(DigitsValue(s))
  {
    TextTotalAgrees(s, false);
  }

  /** Folding the two digits of a double (the library's `cur%10 + cur/10`)
      is what `Weight` subtracts nine for. */
  lemma DoubledDigit(d: nat)
    requires d < 10
    ensures (if 2 * d > 9 then (2 * d) % 10 + (2 * d) / 10 else 2 * d) == Weight(d, true)
  {
    assert d in {0, 1, 2, 3, 4, 5, 6, 7, 8, 9};
  }

  /** Adding the check digit to the folded rest, each reduced mod ten as
      the library does, decides the same as the whole total. */
  lemma CheckDigitApart(n: nat, luhn: nat)
    requires luhn == Total(n / 10, true)
    ensures ((n % 10 + luhn % 10) % 10 == 0) == IsValid(n)
  {
    assert Total(n, false) == n % 10 + luhn;
    var q := luhn / 10;
    assert luhn == 10 * q + luhn % 10;
    assert n % 10 + luhn == (n % 10 + luhn % 10) + 10 * q;
  }

  /** For a negative number the combination step sees only the truncated
      remainder of the last digit. */
  lemma NegativeApart(n: int)
    requires n < 0
    ensures (Rem(Rem(n, 10), 10) == 0) == IsValid(n)
  {
    var r := Rem(n, 10);
    assert Rem(r, 10) == r;
    assert (-n) % 10 == 0 <==> n % 10 == 0;
  }

  /** The check computed the way the checksum library iterates, with Go's
      truncating `/` and `%`: the check digit is set aside, the remaining
      digits are folded from the right with positions 0, 2, 4, ... doubled
      while the rest is positive, and the two are combined. */
  method Check(n: int) returns (ok: bool)
    ensures ok == IsValid(n)
  {
    var rest := Quot(n, 10);
    var luhn := 0;
    var i := 0;
    while rest > 0
      invariant n >= 0 ==> rest >= 0 && luhn + Total(rest, i % 2 == 0) == Total(n / 10, true)
      invariant n < 0 ==> rest <= 0 && luhn == 0
      decreases rest
    {
      ghost var doubled := i % 2 == 0;
      assert Total(rest, doubled) == Weight(rest % 10, doubled) + Total(rest / 10, !doubled);
      var cur := rest % 10;
      if i % 2 == 0 {
        cur := cur * 2;
        if cur > 9 {
          cur := cur % 10 + cur / 10;
        }
      }
      DoubledDigit(rest % 10);
      assert cur == Weight(rest % 10, doubled);
      luhn := luhn + cur;
      rest := rest / 10;
      i := i + 1;
      assert (i % 2 == 0) == !doubled;
    }
    ok := Rem(Rem(n, 10) + luhn % 10, 10) == 0;
    if n >= 0 {
      CheckDigitApart(n, luhn);
    } else {
      NegativeApart(n);
    }
  }
}

=== FILE: model.dfy ===
/** The records the backend passes between its layers. Money is an exact
    decimal, here a `real`; times are whole seconds, the precision of the
    RFC 3339 text the repository stores. */
module Model {

  /** An order's lifecycle status. The column holds free text: whatever
      status string the accrual oracle reports is written back verbatim, so
      anything outside the five known names is kept as `Other`. */
  datatype Status = New | Registered | Processing | Invalid | Processed | Other(text: string)

  const KnownNames: seq<string> := ["NEW", "REGISTERED", "PROCESSING", "INVALID", "PROCESSED"]

  /** The text stored in the status column. */
  function Name(s: Status): string {
    match s
    case New => "NEW"
    case Registered => "REGISTERED"
    case Processing => "PROCESSING"
    case Invalid => "INVALID"
    case Processed => "PROCESSED"
    case Other(t) => t
  }

  /** Reads a status column or an oracle status field. */
  function Parse(text: string): Status {
    if text == "NEW" then New
    else if text == "REGISTERED" then Registered
    else if text == "PROCESSING" then Processing
    else if text == "INVALID" then Invalid
    else if text == "PROCESSED" then Processed
    else Other(text)
  }

  /** A status value that `Parse` can produce: `Other` never hides a known name. */
  predicate Canonical(s: Status) {
    s.Other? ==> s.text !in KnownNames
  }

  /** Reading back what was written loses nothing, for every string. */
  lemma NameOfParse(text: string)
    ensures Name(Parse(text)) == text
    ensures Canonical(Parse(text))
  {
  }

  /** Writing a canonical status and reading it back gives the same status. */
  lemma ParseOfName(s: Status)
    requires Canonical(s)
    ensures Parse(Name(s)) == s
  {
  }

  /** `model.Order`. The serial `ID` column is never read by the logic
      modelled here and is left out. */
  datatype Order = Order(number: string, userId: int, accrual: real, status: Status, uploadedAt: int)

  /** `model.OrderOutput`: one row of a user's order listing. */
  datatype OrderOutput = OrderOutput(number: string, status: Status, accrual: real, uploadedAt: int)

  /** `model.BalanceWithdrawn`: the current balance and the total withdrawn. */
  datatype BalanceWithdrawn = BalanceWithdrawn(balance: real, withdrawn: real)

  /** `model.LoginInput`. */
  datatype LoginInput = LoginInput(login: string, password: string)

  /** `model.WithdrawInput`: the order number the withdrawal pays for, and its sum. */
  datatype WithdrawInput = WithdrawInput(orderNumber: string, sum: real)

  /** `model.WithdrawOutput`: one row of a user's withdrawal history. */
  datatype WithdrawOutput = WithdrawOutput(orderNumber: string, sum: real, processedAt: int)
}

=== FILE: numbers.dfy ===
/** Decimal integer text, as Go's `strconv.Atoi` reads it and
    `strconv.Itoa` writes it, on a 64-bit `int`. */
module Numbers {
  import opened Errors

  const MinInt: int := -0x8000_0000_0000_0000
  const MaxInt: int := 0x7FFF_FFFF_FFFF_FFFF

  predicate InRange(n: int) {
    MinInt <= n <= MaxInt
  }

  predicate IsDigit(c: char) {
    '0' <= c <= '9'
  }

  predicate AllDigits(s: string) {
    forall i :: 0 <= i < |s| ==> IsDigit(s[i])
  }

  function DigitValue(c: char): (d: nat)
    requires IsDigit(c)
    ensures d < 10
  {
    (c as int) - ('0' as int)
  }

  function DigitChar(d: nat): (c: char)
    requires d < 10
    ensures IsDigit(c) && DigitValue(c) == d
  {
    ('0' as int + d) as char
  }

  /** The value of a string of decimal digits, most significant first. */
  function DigitsValue(s: string): nat
    requires AllDigits(s)
  {
    if s == [] then 0 else 10 * DigitsValue(s[..|s| - 1]) + DigitValue(s[|s| - 1])
  }

  /** True when `s[0]` is a sign character that the parser strips. */
  predicate HasSign(s: string) {
    |s| > 0 && (s[0] == '+' || s[0] == '-')
  }

  function Unsigned(s: string): (u: string)
    ensures |u| <= |s|
  {
    if HasSign(s) then s[1..] else s
  }

  /** An optional sign followed by at least one decimal digit. */
  predicate WellFormed(s: string) {
    |Unsigned(s)| > 0 && AllDigits(Unsigned(s))
  }

  /** The mathematical value a well-formed string denotes, before any range check. */
  function Denotes(s: string): int
    requires WellFormed(s)
  {
    var v: int := DigitsValue(Unsigned(s));
    if s[0] == '-' then -v else v
  }

  /** Go's `/` on integers with a positive divisor: the quotient is
      truncated toward zero, not floored. */
  function Quot(a: int, b: int): int
    requires b > 0
  {
    if a >= 0 then a / b else -((-a) / b)
  }

  /** Go's `%` on integers with a positive divisor: the remainder takes
      the sign of the dividend. */
  function Rem(a: int, b: int): (r: int)
    requires b > 0
    ensures a == b * Quot(a, b) + r
    ensures -b < r < b
    ensures a >= 0 ==> 0 <= r
    ensures a <= 0 ==> r <= 0
  {
    if a >= 0 then a % b else -((-a) % b)
  }

  /** The largest value of Go's `uint64`, the accumulator of `strconv.ParseUint`. */
  const MaxUint: int := 0xFFFF_FFFF_FFFF_FFFF

  /** The longest run of decimal digits at the front of `s`. */
  function DigitPrefix(s: string): (p: string)
    ensures |p| <= |s| && p == s[..|p|] && AllDigits(p)
    ensures |p| < |s| ==> !IsDigit(s[|p|])
  {
    if s == [] || !IsDigit(s[0]) then []
    else
      var rest := DigitPrefix(s[1..]);
      assert s[1..][..|rest|] == s[1..|rest| + 1];
      [s[0]] + rest
  }

  /** The unsigned parser reads left to right and stops with a range
      error as soon as the digits read so far exceed `MaxUint`, before it
      would reach a later character that is not a digit. */
  predicate PrefixOverflows(s: string) {
    DigitsValue(DigitPrefix(Unsigned(s))) > MaxUint
  }

  /** `strconv.Atoi`: an optionally signed run of decimal digits within the
      64-bit range is its value. A well-formed string outside the range is
      a range error. A malformed string is a syntax error, unless the digits
      in front of its first non-digit already overflow `MaxUint`, which is
      a range error. */
  function Atoi(s: string): (r: Result<int>)
    ensures r == Err(Syntax) <==> !WellFormed(s) && !PrefixOverflows(s)
    ensures r == Err(Range) <==>
              (WellFormed(s) && !InRange(Denotes(s))) || (!WellFormed(s) && PrefixOverflows(s))
    ensures r.Ok? <==> WellFormed(s) && InRange(Denotes(s))
    ensures r.Ok? ==> r.value == Denotes(s) && InRange(r.value)
  {
    if WellFormed(s) then
      if InRange(Denotes(s)) then Ok(Denotes(s)) else Err(Range)
    else if PrefixOverflows(s) then Err(Range)
    else Err(Syntax)
  }

  /** Appending digits never lowers the value. */
  lemma {:induction false} DigitsValueGrows(p: string, q: string)
    requires AllDigits(p) && AllDigits(q)
    ensures AllDigits(p + q) && DigitsValue(p + q) >= DigitsValue(p)
    decreases |q|
  {
    assert AllDigits(p + q) by {
      forall i | 0 <= i < |p + q|
        ensures IsDigit((p + q)[i])
      {
        if i < |p| { assert (p + q)[i] == p[i]; } else { assert (p + q)[i] == q[i - |p|]; }
      }
    }
    if q != [] {
      var q0 := q[..|q| - 1];
      assert (p + q)[..|p + q| - 1] == p + q0;
      assert (p + q)[|p + q| - 1] == q[|q| - 1];
      DigitsValueGrows(p, q0);
      assert DigitsValue(p + q) == 10 * DigitsValue(p + q0) + DigitValue(q[|q| - 1]);
    } else {
      assert p + q == p;
    }
  }

  /** The digit prefix of a string that starts with the digit run `d`
      is at least as long as `d`, so its value is at least `d`'s. */
  lemma PrefixCoversRun(d: string, rest: string)
    requires AllDigits(d)
    ensures DigitsValue(DigitPrefix(d + rest)) >= DigitsValue(d)
  {
    var s := d + rest;
    var p := DigitPrefix(s);
    assert |p| >= |d|;
    var tail := p[|d|..];
    assert p[..|d|] == s[..|d|] == d;
    assert p == d + tail;
    assert AllDigits(tail) by {
      forall i | 0 <= i < |tail|
        ensures IsDigit(tail[i])
      {
        assert tail[i] == p[|d| + i];
      }
    }
    DigitsValueGrows(d, tail);
  }

  /** An unsigned run of digits whose value exceeds `MaxUint` is a range
      error whatever follows it: the overflow is found before any later
      non-digit is read. */
  lemma OverflowIsRange(d: string, rest: string)
    requires |d| > 0 && AllDigits(d) && DigitsValue(d) > MaxUint
    ensures Atoi(d + rest) == Err(Range)
  {
    var s := d + rest;
    assert s[0] == d[0];
    assert Unsigned(s) == s;
    if WellFormed(s) {
      assert AllDigits(rest) by {
        forall i | 0 <= i < |rest|
          ensures IsDigit(rest[i])
        {
          assert rest[i] == s[|d| + i];
        }
      }
      DigitsValueGrows(d, rest);
      assert !InRange(Denotes(s));
    } else {
      PrefixCoversRun(d, rest);
      assert PrefixOverflows(s);
    }
  }

  /** Decimal digits of a natural number without leading zeros. */
  function NatText(n: nat): (s: string)
    ensures |s| > 0 && AllDigits(s)
    decreases n
  {
    if n < 10 then [DigitChar(n)] else NatText(n / 10) + [DigitChar(n % 10)]
  }

  /** `strconv.Itoa`. */
  function Itoa(n: int): (s: string)
    ensures |s| > 0
  {
    if n < 0 then "-" + NatText(-n) else NatText(n)
  }

  lemma {:induction false} NatTextValue(n: nat)
    ensures DigitsValue(NatText(n)) == n
    ensures NatText(n)[0] != '+' && NatText(n)[0] != '-'
    decreases n
  {
    var s := NatText(n);
    if n >= 10 {
      NatTextValue(n / 10);
      assert s[..|s| - 1] == NatText(n / 10);
    }
  }

  /** Parsing what `Itoa` prints gives the number back: the user id that
      goes into a token as text comes out of it unchanged. */
  lemma ItoaAtoiRoundTrip(n: int)
    requires InRange(n)
    ensures Atoi(Itoa(n)) == Ok(n)
  {
    if n < 0 {
      NatTextValue(-n);
      assert Unsigned(Itoa(n)) == NatText(-n);
    } else {
      NatTextValue(n);
    }
  }
}

=== FILE: repository.dfy ===
/** The PostgreSQL repository as a transformer of an abstract store: one
    function (or, where the query picks an arbitrary row, one method) per
    repository call, giving each SQL statement its effect on the tables.

    Failures that come from outside the model (a lost connection, a
    cancelled context) are an explicit `Fault` parameter: `FailsAt(i)`
    makes the i-th statement of the call (counting from 0) report an
    error. Failures that the data itself causes (no matching row, a
    duplicate order number) are decided by the store. */
module Repository {
  import opened Errors
  import opened Model
  import Sorting

  /** A row of the `users` table. */
  datatype Account = Account(login: string, password: string, balance: real, withdrawn: real)

  /** A row of the `withdraw_history` table. */
  datatype WithdrawRecord = WithdrawRecord(orderNumber: string, userId: int, sum: real, processedAt: int)

  /** The three tables, plus the serial sequence that numbers users.
      Rows of `withdraw_history` are kept in insertion order. */
  datatype Store = Store(
    users: map<int, Account>,
    nextUserId: int,
    orders: map<string, Order>,
    history: seq<WithdrawRecord>)

  datatype Fault = Healthy | FailsAt(statement: nat)

  /** The statement with this index completes. */
  predicate Runs(f: Fault, statement: nat) {
    f != FailsAt(statement)
  }

  /** The faults of the first and of the second repository call that one
      service operation makes. */
  datatype Faults = Faults(first: Fault, second: Fault)

  const NoFaults: Faults := Faults(Healthy, Healthy)

  /** The store after a write, and the error the call returned. */
  datatype Exec = Exec(store: Store, outcome: Outcome)

  /** What the database itself guarantees: serial user ids below the next
      value of the sequence, and orders keyed by their number column. */
  predicate Valid(st: Store) {
    && st.nextUserId >= 1
    && (forall id :: id in st.users ==> 1 <= id < st.nextUserId)
    && (forall n :: n in st.orders ==> st.orders[n].number == n)
  }

  const Empty: Store := Store(map[], 1, map[], [])

  /** One repository call, as a caller issues it. */
  datatype Call =
    | FindUser(login: string)
    | LoginExists(login: string)
    | InsertUser(login: string)
    | LookupOrder(number: string)
    | InsertOrder(number: string, uid: int)
    | ListOrders(uid: int)
    | ReadBalance(uid: int)
    | WriteWithdrawal(input: WithdrawInput, bw: BalanceWithdrawn, uid: int)
    | ListWithdrawals(uid: int)
    | SetStatus(number: string, status: Status)
    | WriteAccrual(uid: int, status: Status, number: string, accrual: real, balance: real)

  // ----- users -----

  /** Everything a user has been credited with: the current balance plus
      the total withdrawn so far; zero for an unknown user. */
  function Holding(st: Store, uid: int): real {
    if uid in st.users then st.users[uid].balance + st.users[uid].withdrawn else 0.0
  }

  predicate HasCredentials(st: Store, login: string, password: string) {
    exists id :: id in st.users && st.users[id].login == login && st.users[id].password == password
  }

  /** `SELECT id FROM users WHERE login = $1 AND password = $2`; an empty
      result is `InvalidCredentials`. */
  method CheckCredentials(st: Store, login: string, password: string, fault: Fault) returns (r: Result<int>)
    ensures !Runs(fault, 0) ==> r == Err(Database)
    ensures r == Err(InvalidCredentials) <==> Runs(fault, 0) && !HasCredentials(st, login, password)
    ensures r.Ok? <==> Runs(fault, 0) && HasCredentials(st, login, password)
    ensures r.Ok? ==> r.value in st.users && st.users[r.value].login == login
                      && st.users[r.value].password == password
  {
    if !Runs(fault, 0) {
      return Err(Database);
    }
    if id :| id in st.users && st.users[id].login == login && st.users[id].password == password {
      return Ok(id);
    }
    return Err(InvalidCredentials);
  }

  predicate LoginTaken(st: Store, login: string) {
    exists id :: id in st.users && st.users[id].login == login
  }

  /** `SELECT EXISTS(SELECT 1 FROM users WHERE login=$1)`. */
  function IsUserExist(st: Store, login: string, fault: Fault): (r: Result<bool>)
    ensures r.Err? <==> !Runs(fault, 0)
    ensures r == Ok(true) <==> Runs(fault, 0) && LoginTaken(st, login)
  {
    if !Runs(fault, 0) then Err(Database) else Ok(LoginTaken(st, login))
  }

  /** `INSERT INTO users ... RETURNING id`: a new user with zero balance and
      zero withdrawn, numbered by the serial sequence. */
  function Register(st: Store, login: string, password: string, fault: Fault): (r: (Store, Result<int>))
    ensures !Runs(fault, 0) ==> r == (st, Err(Database))
    ensures Runs(fault, 0) ==> r.1.Ok? && r.1.value in r.0.users
                               && r.0.users[r.1.value] == Account(login, password, 0.0, 0.0)
    ensures Valid(st) && Runs(fault, 0) ==> r.1.value !in st.users && r.0.users.Keys == st.users.Keys + {r.1.value}
    ensures Valid(st) ==> Valid(r.0)
    ensures r.0.orders == st.orders && r.0.history == st.history
    ensures Valid(st) ==> forall id :: id in st.users ==> id in r.0.users && r.0.users[id] == st.users[id]
  {
    if !Runs(fault, 0) then (st, Err(Database))
    else
      var id := st.nextUserId;
      (st.(users := st.users[id := Account(login, password, 0.0, 0.0)], nextUserId := id + 1), Ok(id))
  }

  /** `SELECT balance, withdrawn FROM users WHERE id = $1`. */
  function GetBalanceByUserID(st: Store, uid: int, fault: Fault): (r: Result<BalanceWithdrawn>)
    ensures !Runs(fault, 0) ==> r == Err(Database)
    ensures Runs(fault, 0) && uid !in st.users ==> r == Err(NoRows)
    ensures r.Ok? <==> Runs(fault, 0) && uid in st.users
    ensures r.Ok? ==> r.value.balance == st.users[uid].balance && r.value.withdrawn == st.users[uid].withdrawn
  {
    if !Runs(fault, 0) then Err(Database)
    else if uid !in st.users then Err(NoRows)
    else Ok(BalanceWithdrawn(st.users[uid].balance, st.users[uid].withdrawn))
  }

  // ----- orders -----

  /** The value `GetOrderByNumber` returns when no row matches. */
  const NotFound: Order := Order("", -1, 0.0, Other(""), 0)

  /** `SELECT number, user_id, status, uploaded_at FROM orders WHERE number = $1`.
      No row is not an error: it yields an order whose user id is -1. The
      accrual column is not selected, so it reads as zero. */
  function GetOrderByNumber(st: Store, number: string, fault: Fault): (r: Result<Order>)
    ensures !Runs(fault, 0) ==> r == Err(Database)
    ensures Runs(fault, 0) ==> r.Ok?
    ensures r.Ok? && number !in st.orders ==> r.value == NotFound
    ensures r.Ok? && number in st.orders ==>
              var o := st.orders[number];
              r.value == Order(o.number, o.userId, 0.0, o.status, o.uploadedAt)
  {
    if !Runs(fault, 0) then Err(Database)
    else if number !in st.orders then Ok(NotFound)
    else
      var o := st.orders[number];
      Ok(Order(o.number, o.userId, 0.0, o.status, o.uploadedAt))
  }

  /** The -1 owner means "no such order" exactly when no stored order is
      owned by the user id -1. */
  lemma NotFoundSentinel(st: Store, number: string)
    requires number in st.orders ==> st.orders[number].userId != -1
    ensures GetOrderByNumber(st, number, Healthy).Ok?
    ensures GetOrderByNumber(st, number, Healthy).value.userId == -1 <==> number !in st.orders
  {
  }

  /** `INSERT INTO orders (number, user_id, status, uploaded_at)`: a new
      order in status NEW with zero accrual. The order number is the key,
      so inserting one that exists fails. */
  function SendOrder(st: Store, number: string, uid: int, now: int, fault: Fault): (r: Exec)
    ensures r.outcome.Pass? <==> Runs(fault, 0) && number !in st.orders
    ensures r.outcome.Fail? ==> r.store == st && r.outcome.error == Database
    ensures r.outcome.Pass? ==> r.store.orders == st.orders[number := Order(number, uid, 0.0, New, now)]
    ensures r.store.users == st.users && r.store.nextUserId == st.nextUserId && r.store.history == st.history
    ensures Valid(st) ==> Valid(r.store)
  {
    if !Runs(fault, 0) || number in st.orders then Exec(st, Fail(Database))
    else Exec(st.(orders := st.orders[number := Order(number, uid, 0.0, New, now)]), Pass)
  }

  function Row(o: Order): OrderOutput {
    OrderOutput(o.number, o.status, o.accrual, o.uploadedAt)
  }

  function UploadedAt(o: OrderOutput): int {
    o.uploadedAt
  }

  /** The numbers of the orders a user owns. */
  function OwnedBy(st: Store, uid: int): set<string> {
    set n | n in st.orders && st.orders[n].userId == uid
  }

  /** `rows` lists exactly the orders numbered in `listed`, newest first. */
  predicate Lists(st: Store, listed: set<string>, rows: seq<OrderOutput>)
    requires listed <= st.orders.Keys
  {
    && Sorting.SortedDesc(rows, UploadedAt)
    && |rows| == |listed|
    && (forall n :: n in listed ==> Row(st.orders[n]) in rows)
    && (forall k :: 0 <= k < |rows| ==> exists n :: n in listed && rows[k] == Row(st.orders[n]))
  }

  /** `rows` is a listing of the user's orders, newest first: one row per
      order the user owns and nothing else. */
  predicate ListsOrders(st: Store, uid: int, rows: seq<OrderOutput>) {
    Lists(st, OwnedBy(st, uid), rows)
  }

  /** Inserting one more order keeps the listing exact. */
  lemma ListOneMore(st: Store, listed: set<string>, rows: seq<OrderOutput>, n: string)
    requires listed <= st.orders.Keys && n in st.orders && n !in listed
    requires Lists(st, listed, rows)
    ensures Lists(st, listed + {n}, Sorting.Insert(rows, Row(st.orders[n]), UploadedAt))
  {
    var row := Row(st.orders[n]);
    var next := Sorting.Insert(rows, row, UploadedAt);
    var all := listed + {n};
    Sorting.InsertSorted(rows, row, UploadedAt);
    Sorting.InsertKeepsRows(rows, row, UploadedAt);
    assert |next| == |all| by {
      assert |next| == |multiset(next)| == |rows| + 1;
      assert |all| == |listed| + 1;
    }
    assert forall k :: 0 <= k < |next| ==> exists m :: m in all && next[k] == Row(st.orders[m]) by {
      forall k | 0 <= k < |next|
        ensures exists m :: m in all && next[k] == Row(st.orders[m])
      {
        assert next[k] in multiset(rows) + multiset{row};
      }
    }
    assert forall m :: m in all ==> Row(st.orders[m]) in next by {
      forall m | m in all
        ensures Row(st.orders[m]) in next
      {
        if m != n {
          assert Row(st.orders[m]) in multiset(rows);
        }
        assert Row(st.orders[m]) in multiset(next);
      }
    }
  }

  /** `SELECT number, accrual, status, uploaded_at FROM orders WHERE
      user_id = $1 ORDER BY uploaded_at DESC`. Orders uploaded in the same
      second come back in no particular order. */
  method GetOrders(st: Store, uid: int, fault: Fault) returns (r: Result<seq<OrderOutput>>)
    ensures !Runs(fault, 0) ==> r == Err(Database)
    ensures Runs(fault, 0) ==> r.Ok? && ListsOrders(st, uid, r.value)
  {
    if !Runs(fault, 0) {
      return Err(Database);
    }
    var remaining := OwnedBy(st, uid);
    ghost var listed: set<string> := {};
    var rows: seq<OrderOutput> := [];
    while remaining != {}
      invariant remaining + listed == OwnedBy(st, uid) && remaining !! listed
      invariant Lists(st, listed, rows)
      decreases remaining
    {
      var n :| n in remaining;
      ListOneMore(st, listed, rows, n);
      rows := Sorting.Insert(rows, Row(st.orders[n]), UploadedAt);
      remaining := remaining - {n};
      listed := listed + {n};
    }
    return Ok(rows);
  }

  /** `UPDATE orders SET status = $1 WHERE number = $2`: only that order's
      status changes; an unknown number matches no row and is not an error. */
  function UpdateOrderStatus(st: Store, number: string, status: Status, fault: Fault): (r: Exec)
    ensures r.outcome == (if Runs(fault, 0) then Pass else Fail(Database))
    ensures r.store.users == st.users && r.store.nextUserId == st.nextUserId && r.store.history == st.history
    ensures r.store.orders.Keys == st.orders.Keys
    ensures forall n :: n in st.orders && n != number ==> r.store.orders[n] == st.orders[n]
    ensures number in st.orders ==>
              r.store.orders[number] == if r.outcome.Pass? then st.orders[number].(status := status) else st.orders[number]
    ensures Valid(st) ==> Valid(r.store)
  {
    if !Runs(fault, 0) then Exec(st, Fail(Database))
    else if number !in st.orders then Exec(st, Pass)
    else Exec(st.(orders := st.orders[number := st.orders[number].(status := status)]), Pass)
  }

  /** `MakeAccrual`: in one transaction, `UPDATE orders SET status, accrual`
      then `UPDATE users SET balance = $1` with the caller's absolute new
      balance. The transaction is committed whatever happens and never
      rolled back, so when the second statement fails the first one's
      effect stays. */
  function MakeAccrual(st: Store, uid: int, status: Status, number: string, accrual: real, balance: real, fault: Fault): (r: Exec)
    ensures r.outcome == (if fault.Healthy? || fault.statement >= 2 then Pass else Fail(Database))
    ensures r.store.nextUserId == st.nextUserId && r.store.history == st.history
    ensures r.store.orders.Keys == st.orders.Keys && r.store.users.Keys == st.users.Keys
    ensures forall n :: n in st.orders && n != number ==> r.store.orders[n] == st.orders[n]
    ensures forall id :: id in st.users && id != uid ==> r.store.users[id] == st.users[id]
    ensures number in st.orders ==>
              r.store.orders[number] == if Runs(fault, 0) then st.orders[number].(status := status, accrual := accrual) else st.orders[number]
    ensures uid in st.users ==>
              r.store.users[uid] == if r.outcome.Pass? then st.users[uid].(balance := balance) else st.users[uid]
    ensures Valid(st) ==> Valid(r.store)
  {
    if !Runs(fault, 0) then Exec(st, Fail(Database))
    else
      var orders := if number in st.orders
                    then st.orders[number := st.orders[number].(status := status, accrual := accrual)]
                    else st.orders;
      if !Runs(fault, 1) then Exec(st.(orders := orders), Fail(Database))
      else
        var users := if uid in st.users then st.users[uid := st.users[uid].(balance := balance)] else st.users;
        Exec(st.(orders := orders, users := users), Pass)
  }

  // ----- withdrawals -----

  /** `Withdraw`: in one transaction, append the history row, then
      `UPDATE users SET balance = $1, withdrawn = $2` with the caller's
      absolute values. As in `MakeAccrual`, a failing second statement
      leaves the first one's row in place. */
  function Withdraw(st: Store, input: WithdrawInput, bw: BalanceWithdrawn, uid: int, now: int, fault: Fault): (r: Exec)
    ensures r.outcome == (if fault.Healthy? || fault.statement >= 2 then Pass else Fail(Database))
    ensures r.store.orders == st.orders && r.store.nextUserId == st.nextUserId
    ensures r.store.users.Keys == st.users.Keys
    ensures forall id :: id in st.users && id != uid ==> r.store.users[id] == st.users[id]
    ensures r.store.history == if Runs(fault, 0) then st.history + [WithdrawRecord(input.orderNumber, uid, input.sum, now)] else st.history
    ensures uid in st.users ==>
              r.store.users[uid] == if r.outcome.Pass? then st.users[uid].(balance := bw.balance, withdrawn := bw.withdrawn) else st.users[uid]
    ensures Valid(st) ==> Valid(r.store)
  {
    if !Runs(fault, 0) then Exec(st, Fail(Database))
    else
      var history := st.history + [WithdrawRecord(input.orderNumber, uid, input.sum, now)];
      if !Runs(fault, 1) then Exec(st.(history := history), Fail(Database))
      else
        var users := if uid in st.users
                     then st.users[uid := st.users[uid].(balance := bw.balance, withdrawn := bw.withdrawn)]
                     else st.users;
        Exec(st.(history := history, users := users), Pass)
  }

  function HistoryRow(w: WithdrawRecord): WithdrawOutput {
    WithdrawOutput(w.orderNumber, w.sum, w.processedAt)
  }

  function ProcessedAt(w: WithdrawOutput): int {
    w.processedAt
  }

  /** The user's history rows in table order. */
  function Own(history: seq<WithdrawRecord>, uid: int): (rows: seq<WithdrawOutput>)
    ensures |rows| <= |history|
  {
    if history == [] then []
    else
      var last := history[|history| - 1];
      Own(history[..|history| - 1], uid) + (if last.userId == uid then [HistoryRow(last)] else [])
  }

  lemma {:induction false} OwnRows(history: seq<WithdrawRecord>, uid: int, w: WithdrawOutput)
    ensures w in Own(history, uid) <==>
              exists i :: 0 <= i < |history| && history[i].userId == uid && HistoryRow(history[i]) == w
  {
    if history != [] {
      var init := history[..|history| - 1];
      OwnRows(init, uid, w);
      if exists i :: 0 <= i < |history| && history[i].userId == uid && HistoryRow(history[i]) == w {
        var i :| 0 <= i < |history| && history[i].userId == uid && HistoryRow(history[i]) == w;
        if i < |history| - 1 {
          assert init[i] == history[i];
        }
      }
    }
  }

  /** `SELECT order_number, amount, processed_at FROM withdraw_history
      WHERE user_id = $1 ORDER BY processed_at DESC`. */
  function GetWithdrawHistory(st: Store, uid: int, fault: Fault): (r: Result<seq<WithdrawOutput>>)
    ensures !Runs(fault, 0) ==> r == Err(Database)
    ensures Runs(fault, 0) ==>
              r.Ok? && Sorting.SortedDesc(r.value, ProcessedAt) && multiset(r.value) == multiset(Own(st.history, uid))
  {
    if !Runs(fault, 0) then Err(Database)
    else Ok(Sorting.Sort(Own(st.history, uid), ProcessedAt))
  }

  /** A successful withdrawal adds exactly one row to its user's history
      and none to anyone else's. */
  lemma WithdrawRecorded(st: Store, input: WithdrawInput, bw: BalanceWithdrawn, uid: int, now: int, fault: Fault, other: int)
    requires Runs(fault, 0)
    ensures var h := Withdraw(st, input, bw, uid, now, fault).store.history;
            Own(h, uid) == Own(st.history, uid) + [WithdrawOutput(input.orderNumber, input.sum, now)]
            && (other != uid ==> Own(h, other) == Own(st.history, other))
  {
    var h := Withdraw(st, input, bw, uid, now, fault).store.history;
    assert h[..|h| - 1] == st.history;
  }
}

=== FILE: service.dfy ===
/** The service layer: input checks and money arithmetic between the HTTP
    handlers and the repository. Each operation returns the store after it,
    its error, and the repository calls it made in order, so that "no
    repository call" is something a contract can say. */
module Service {
  import opened Errors
  import opened Model
  import R = Repository
  import Numbers
  import Luhn
  import Sorting
  import Accrual

  /** The integer parse and Luhn check that order and withdrawal numbers
      both go through before the repository is consulted. */
  function CheckNumber(number: string): (r: Outcome)
    ensures Numbers.Atoi(number).Err? ==> r == Fail(Numbers.Atoi(number).error)
    ensures Numbers.Atoi(number).Ok? ==> (r.Pass? <==> Luhn.IsValid(Numbers.Atoi(number).value))
    ensures r.Fail? ==> r.error in {Syntax, Range, LuhnInvalid}
  {
    match Numbers.Atoi(number)
    case Err(e) => Fail(e)
    case Ok(n) => if Luhn.IsValid(n) then Pass else Fail(LuhnInvalid)
  }

  /** For a plain run of digits that fits the 64-bit range, the check is
      the Luhn check of the digits as written. */
  lemma CheckDigits(number: string)
    requires |number| > 0 && Numbers.AllDigits(number)
    requires Numbers.DigitsValue(number) <= Numbers.MaxInt
    ensures CheckNumber(number).Pass? <==> Luhn.TextIsValid(number)
    ensures CheckNumber(number).Fail? ==> CheckNumber(number) == Fail(LuhnInvalid)
  {
    assert Numbers.Unsigned(number) == number;
    Luhn.TextCheckAgrees(number);
  }

  /** The result of submitting an order: the jobs handed to the accrual
      queue alongside the usual store, error and calls. */
  datatype Submitted = Submitted(store: R.Store, outcome: Outcome, calls: seq<R.Call>, enqueued: seq<Accrual.Job>)

  /** `SendOrder`: a new order is stored for the caller and queued for
      accrual; an order that is already stored is refused, with a
      different error depending on who owns it. */
  function SendOrder(st: R.Store, number: string, uid: int, now: int, db: R.Faults): (r: Submitted)
    ensures CheckNumber(number).Fail? ==> r == Submitted(st, CheckNumber(number), [], [])
    ensures CheckNumber(number).Pass? ==> |r.calls| >= 1 && r.calls[0] == R.LookupOrder(number)
    ensures r.outcome.Pass? <==>
              CheckNumber(number).Pass? && R.Runs(db.first, 0) && number !in st.orders && uid != -1
              && R.Runs(db.second, 0)
    ensures r.outcome == Fail(OrderIsAlreadySent) <==>
              && CheckNumber(number).Pass? && R.Runs(db.first, 0)
              && (if number in st.orders then st.orders[number].userId == uid else uid == -1)
    ensures r.outcome == Fail(OrderIsAlreadySentByOtherUser) <==>
              && CheckNumber(number).Pass? && R.Runs(db.first, 0) && number in st.orders
              && st.orders[number].userId != uid && st.orders[number].userId != -1
    ensures r.outcome.Pass? ==>
              && r.store == st.(orders := st.orders[number := Order(number, uid, 0.0, New, now)])
              && r.calls == [R.LookupOrder(number), R.InsertOrder(number, uid)]
    ensures r.outcome.Fail? ==> r.store == st
    ensures r.enqueued == if r.outcome.Pass? then [Accrual.Job(uid, number)] else []
    ensures R.Valid(st) ==> R.Valid(r.store)
  {
    if CheckNumber(number).Fail? then Submitted(st, CheckNumber(number), [], [])
    else
      match R.GetOrderByNumber(st, number, db.first)
      case Err(e) => Submitted(st, Fail(e), [R.LookupOrder(number)], [])
      case Ok(order) =>
        if order.userId == uid then Submitted(st, Fail(OrderIsAlreadySent), [R.LookupOrder(number)], [])
        else if order.userId != -1 && order.userId != uid then
          Submitted(st, Fail(OrderIsAlreadySentByOtherUser), [R.LookupOrder(number)], [])
        else
          var w := R.SendOrder(st, number, uid, now, db.second);
          var calls := [R.LookupOrder(number), R.InsertOrder(number, uid)];
          if w.outcome.Fail? then Submitted(w.store, w.outcome, calls, [])
          else Submitted(w.store, Pass, calls, [Accrual.Job(uid, number)])
  }

  /** The result of a withdrawal request. */
  datatype Withdrawn = Withdrawn(store: R.Store, outcome: Outcome, calls: seq<R.Call>)

  /** `Withdraw`: refuses when the balance is below the sum (an equal
      balance is enough), otherwise writes `balance - sum` and
      `withdrawn + sum` together with a history row. A negative sum is not
      refused here and raises the balance. */
  function Withdraw(st: R.Store, input: WithdrawInput, uid: int, now: int, db: R.Faults): (r: Withdrawn)
    ensures CheckNumber(input.orderNumber).Fail? ==> r == Withdrawn(st, CheckNumber(input.orderNumber), [])
    ensures CheckNumber(input.orderNumber).Pass? ==> |r.calls| >= 1 && r.calls[0] == R.ReadBalance(uid)
    ensures r.outcome == Fail(InsufficientFunds) <==>
              && CheckNumber(input.orderNumber).Pass? && R.Runs(db.first, 0) && uid in st.users
              && st.users[uid].balance < input.sum
    ensures r.outcome == Fail(InsufficientFunds) ==> r.store == st && r.calls == [R.ReadBalance(uid)]
    ensures CheckNumber(input.orderNumber).Pass? && (!R.Runs(db.first, 0) || uid !in st.users) ==>
              r.store == st && r.calls == [R.ReadBalance(uid)]
    ensures r.outcome == Fail(Database) && R.Runs(db.first, 0) && uid in st.users ==>
              && r.store.users == st.users
              && r.store.history == st.history +
                   (if R.Runs(db.second, 0) then [R.WithdrawRecord(input.orderNumber, uid, input.sum, now)] else [])
    ensures r.outcome.Pass? <==>
              && CheckNumber(input.orderNumber).Pass? && R.Runs(db.first, 0) && uid in st.users
              && st.users[uid].balance >= input.sum && (db.second.Healthy? || db.second.statement >= 2)
    ensures r.outcome.Pass? ==>
              var acct := st.users[uid];
              var bw := BalanceWithdrawn(acct.balance - input.sum, acct.withdrawn + input.sum);
              && r.calls == [R.ReadBalance(uid), R.WriteWithdrawal(input, bw, uid)]
              && r.store.users == st.users[uid := acct.(balance := bw.balance, withdrawn := bw.withdrawn)]
              && r.store.history == st.history + [R.WithdrawRecord(input.orderNumber, uid, input.sum, now)]
    ensures r.store.orders == st.orders && r.store.users.Keys == st.users.Keys
    ensures forall u :: R.Holding(r.store, u) == R.Holding(st, u)
    ensures R.Valid(st) ==> R.Valid(r.store)
  {
    if CheckNumber(input.orderNumber).Fail? then Withdrawn(st, CheckNumber(input.orderNumber), [])
    else
      match R.GetBalanceByUserID(st, uid, db.first)
      case Err(e) => Withdrawn(st, Fail(e), [R.ReadBalance(uid)])
      case Ok(bw) =>
        if bw.balance < input.sum then Withdrawn(st, Fail(InsufficientFunds), [R.ReadBalance(uid)])
        else
          var next := BalanceWithdrawn(bw.balance - input.sum, bw.withdrawn + input.sum);
          var w := R.Withdraw(st, input, next, uid, now, db.second);
          Withdrawn(w.store, w.outcome, [R.ReadBalance(uid), R.WriteWithdrawal(input, next, uid)])
  }

  /** A successful withdrawal of a non-negative sum from a non-negative
      balance leaves a non-negative balance. */
  lemma WithdrawKeepsBalanceNonNegative(st: R.Store, input: WithdrawInput, uid: int, now: int, db: R.Faults)
    requires uid in st.users && st.users[uid].balance >= 0.0 && input.sum >= 0.0
    requires Withdraw(st, input, uid, now, db).outcome.Pass?
    ensures Withdraw(st, input, uid, now, db).store.users[uid].balance >= 0.0
    ensures Withdraw(st, input, uid, now, db).store.users[uid].balance <= st.users[uid].balance
  {
  }

  /** An empty listing becomes `NoRecords`; anything else passes through. */
  function RequireRecords<T>(rows: Result<seq<T>>): (r: Result<seq<T>>)
    ensures rows.Err? ==> r == rows
    ensures rows.Ok? ==> (r == Err(NoRecords) <==> rows.value == [])
    ensures r.Ok? ==> r == rows && r.value != []
  {
    if rows.Ok? && rows.value == [] then Err(NoRecords) else rows
  }

  /** `GetOrders`: the caller's orders newest first, or `NoRecords` when
      there are none. */
  method GetOrders(st: R.Store, uid: int, fault: R.Fault) returns (r: Result<seq<OrderOutput>>, calls: seq<R.Call>)
    ensures calls == [R.ListOrders(uid)]
    ensures !R.Runs(fault, 0) ==> r == Err(Database)
    ensures r == Err(NoRecords) <==> R.Runs(fault, 0) && R.OwnedBy(st, uid) == {}
    ensures r.Ok? <==> R.Runs(fault, 0) && R.OwnedBy(st, uid) != {}
    ensures r.Ok? ==> R.ListsOrders(st, uid, r.value)
  {
    var rows := R.GetOrders(st, uid, fault);
    r := RequireRecords(rows);
    calls := [R.ListOrders(uid)];
  }

  /** `GetWithdrawHistory`: the caller's withdrawals newest first, or
      `NoRecords` when there are none. */
  function GetWithdrawHistory(st: R.Store, uid: int, fault: R.Fault): (r: Result<seq<WithdrawOutput>>)
    ensures !R.Runs(fault, 0) ==> r == Err(Database)
    ensures r == Err(NoRecords) <==> R.Runs(fault, 0) && R.Own(st.history, uid) == []
    ensures r.Ok? <==> R.Runs(fault, 0) && R.Own(st.history, uid) != []
    ensures r.Ok? ==> && r.value != []
                      && Sorting.SortedDesc(r.value, R.ProcessedAt)
                      && multiset(r.value) == multiset(R.Own(st.history, uid))
  {
    RequireRecords(R.GetWithdrawHistory(st, uid, fault))
  }

  /** `GetBalanceByUserID`: the user's stored balance and withdrawn total,
      `NoRows` for an unknown user, and a database error when the read
      fails. */
  function GetBalanceByUserID(st: R.Store, uid: int, fault: R.Fault): (r: Result<BalanceWithdrawn>)
    ensures !R.Runs(fault, 0) ==> r == Err(Database)
    ensures R.Runs(fault, 0) && uid !in st.users ==> r == Err(NoRows)
    ensures r.Ok? <==> R.Runs(fault, 0) && uid in st.users
    ensures r.Ok? ==> r.value == BalanceWithdrawn(st.users[uid].balance, st.users[uid].withdrawn)
  {
    R.GetBalanceByUserID(st, uid, fault)
  }

  /** `Login`: the user whose login and password digest match. The digest
      function is a parameter; the token issued for the user id is left out,
      so the result is the id it would carry. */
  method Login(st: R.Store, login: string, password: string, digest: string -> string, fault: R.Fault)
    returns (r: Result<int>, calls: seq<R.Call>)
    ensures calls == [R.FindUser(login)]
    ensures !R.Runs(fault, 0) ==> r == Err(Database)
    ensures r == Err(InvalidCredentials) <==> R.Runs(fault, 0) && !R.HasCredentials(st, login, digest(password))
    ensures r.Ok? <==> R.Runs(fault, 0) && R.HasCredentials(st, login, digest(password))
    ensures r.Ok? ==> r.value in st.users && st.users[r.value].login == login
                      && st.users[r.value].password == digest(password)
  {
    r := R.CheckCredentials(st, login, digest(password), fault);
    calls := [R.FindUser(login)];
  }

  /** The result of registering: the new user's id, as the token carries it. */
  datatype SignedUp = SignedUp(store: R.Store, result: Result<int>, calls: seq<R.Call>)

  /** `Register`: refuses a login that is already taken, otherwise stores
      the user with the digest of the password. */
  function Register(st: R.Store, login: string, password: string, digest: string -> string, db: R.Faults): (r: SignedUp)
    ensures |r.calls| >= 1 && r.calls[0] == R.LoginExists(login)
    ensures r.result == Err(LoginIsAlreadyTaken) <==> R.Runs(db.first, 0) && R.LoginTaken(st, login)
    ensures r.result.Ok? <==> R.Runs(db.first, 0) && !R.LoginTaken(st, login) && R.Runs(db.second, 0)
    ensures r.result.Ok? ==> && r.calls == [R.LoginExists(login), R.InsertUser(login)]
                             && r.result.value in r.store.users
                             && r.store.users[r.result.value] == R.Account(login, digest(password), 0.0, 0.0)
    ensures r.result.Err? ==> r.store == st
    ensures r.calls == [R.LoginExists(login)] || r.calls == [R.LoginExists(login), R.InsertUser(login)]
    ensures r.store.orders == st.orders && r.store.history == st.history
    ensures R.Valid(st) ==> R.Valid(r.store)
    ensures R.Valid(st) ==> forall u :: R.Holding(r.store, u) == R.Holding(st, u)
  {
    match R.IsUserExist(st, login, db.first)
    case Err(e) => SignedUp(st, Err(e), [R.LoginExists(login)])
    case Ok(taken) =>
      if taken then SignedUp(st, Err(LoginIsAlreadyTaken), [R.LoginExists(login)])
      else
        var (store, id) := R.Register(st, login, digest(password), db.second);
        SignedUp(store, id, [R.LoginExists(login), R.InsertUser(login)])
  }
}

=== FILE: sorting.dfy ===
/** Ordering a query's rows by a time column, newest first, as
    `ORDER BY ... DESC` does. */
module Sorting {

  predicate SortedDesc<T>(xs: seq<T>, key: T -> int) {
    forall i, j :: 0 <= i < j < |xs| ==> key(xs[i]) >= key(xs[j])
  }

  /** No row's key exceeds `bound`. */
  predicate AtMost<T>(xs: seq<T>, bound: int, key: T -> int) {
    forall k :: 0 <= k < |xs| ==> key(xs[k]) <= bound
  }

  /** Places `x` in front of the first row it is not older than. */
  function Insert<T>(xs: seq<T>, x: T, key: T -> int): seq<T>
    decreases |xs|
  {
    if xs == [] then [x]
    else if key(x) >= key(xs[0]) then [x] + xs
    else [xs[0]] + Insert(xs[1..], x, key)
  }

  lemma {:induction false} InsertKeepsRows<T>(xs: seq<T>, x: T, key: T -> int)
    ensures multiset(Insert(xs, x, key)) == multiset(xs) + multiset{x}
    decreases |xs|
  {
    if xs != [] && key(x) < key(xs[0]) {
      InsertKeepsRows(xs[1..], x, key);
      assert xs == [xs[0]] + xs[1..];
    }
  }

  lemma {:induction false} InsertBounded<T>(xs: seq<T>, x: T, key: T -> int, bound: int)
    requires AtMost(xs, bound, key) && key(x) <= bound
    ensures AtMost(Insert(xs, x, key), bound, key)
    decreases |xs|
  {
    if xs != [] && key(x) < key(xs[0]) {
      InsertBounded(xs[1..], x, key, bound);
    }
  }

  lemma {:induction false} InsertSorted<T>(xs: seq<T>, x: T, key: T -> int)
    requires SortedDesc(xs, key)
    ensures SortedDesc(Insert(xs, x, key), key)
    decreases |xs|
  {
    if xs != [] && key(x) < key(xs[0]) {
      InsertSorted(xs[1..], x, key);
      assert AtMost(xs[1..], key(xs[0]), key);
      InsertBounded(xs[1..], x, key, key(xs[0]));
    }
  }

  /** The rows in descending key order; rows with equal keys keep no
      particular order, as in SQL. */
  function Sort<T>(xs: seq<T>, key: T -> int): (r: seq<T>)
    ensures SortedDesc(r, key)
    ensures multiset(r) == multiset(xs)
    decreases |xs|
  {
    if xs == [] then []
    else
      var init := xs[..|xs| - 1];
      var sorted := Sort(init, key);
      InsertSorted(sorted, xs[|xs| - 1], key);
      InsertKeepsRows(sorted, xs[|xs| - 1], key);
      assert xs == init + [xs[|xs| - 1]];
      Insert(sorted, xs[|xs| - 1], key)
  }
}
